=== FILE: README.md ===
# A model of the commit action's diff-and-assembly core

`actions-commit` turns the files of a working tree into one git commit made
through a repository-hosting service. It:

1. selects files with include and exclude globs;
2. drops those whose git blob id already matches the base commit's tree;
3. moves each remaining file to its destination (strip a source directory,
   optionally flatten, put under a target directory);
4. stores each file as a blob and rejects two files with one destination;
5. classifies each file's permission bits;
6. lays the new entries over the base tree and publishes a commit, or returns
   the base commit when there is nothing to commit.

This project models that core (`src/lib.rs`) in Dafny and proves what it
promises. Everything outside the process is a parameter of the model:

- the working tree is a map from paths to nodes (file, directory, link);
- glob expansion is a function from a pattern to its matches;
- SHA-1 is a function from bytes to an id;
- the remote tree listings are values;
- blob creation is a function that may refuse;
- the iteration order of a `HashSet` is a function from a set to a sequence.

Paths are sequences of components. `strip_prefix` is the sequence prefix and
`join` is concatenation.

| file | module | models |
|---|---|---|
| Types.dfy | `Types` | paths, ids, working-tree nodes, tree entries, errors, `Result` |
| Options.dfy | `Options` | `CommitOptions`, `new`, the `with_*` builders, the chain built by `src/bin.rs` |
| BlobHash.dfy | `BlobHash` | `get_file_sha`: the blob object `"blob " ++ decimal(length) ++ NUL ++ data` and its parse |
| Unchanged.dfy | `Unchanged` | `fetch_unchanged`: serial top-level scan, best-effort subtree scan |
| Selection.dfy | `Selection` | the include and exclude passes of `execute` |
| PathTransform.dfy | `PathTransform` | source stripping, flattening, target prefixing |
| Assembly.dfy | `Assembly` | the per-file closure, the aggregation loop, mode classification |
| Commit.dfy | `Commit` | `execute` end to end: the gate, base-tree reuse, the published commit |

Some behaviour of the code that the model keeps:

- A top-level blob whose local hash fails ends the run (`?` at `src/lib.rs:215`).
  Only nested files fail softly: their failures just leave them out of the
  unchanged set.
- The commit gate (`src/lib.rs:294-302`) tests the candidate set before
  directories and links are dropped. This is Finding 1 below.
- Blobs are created (`src/lib.rs:333-335`) before the conflict check
  (`src/lib.rs:351-354`). So a conflicting run may already have stored blobs.
  No commit is created in that case.
- Flattening (`src/lib.rs:324-327`) strips the whole parent of the path below
  the source directory, leaving only the file name.
- `new` (`src/lib.rs:49-58`) accepts any message, the empty one included.

## Model

| member | source | states |
|---|---|---|
| Options.New | src/lib.rs:45-59 | The options hold the given message, `always` is `Some(false)`, and every other option is unset. |
| Options.WithAlwaysCommit | src/lib.rs:61-75 | Only `always` changes, and it takes the given value. |
| Options.WithTargetDirectory | src/lib.rs:77-94 | Only the target directory changes, and it takes the given value. |
| Options.WithSourceDirectory | src/lib.rs:96-113 | Only the source directory changes, and it takes the given value. |
| Options.WithFlattening | src/lib.rs:115-129 | Only `flatten` changes, and it takes the given value. |
| Options.WithForce | src/lib.rs:131-145 | Only `force` changes, and it takes the given value. |
| Options.WithInclude | src/lib.rs:147-161 | Only the include list changes, and it takes the given value. |
| Options.WithExclude | src/lib.rs:163-177 | Only the exclude list changes, and it takes the given value. |
| Options.FromInputs | src/bin.rs:50-56 | The entry point's chain gives every input to its own field and leaves `always` at `Some(false)`. |
| Options.Apply | src/lib.rs:61-177 | Whichever builder is called, it changes no field other than its own. |
| Options.LastWriteWins | src/lib.rs:61-177 | For every one of the seven builders, calling it twice keeps only the second argument. |
| Options.BuildersCommute | src/lib.rs:61-177 | For every pair of builders that replace different fields, the two calls can be made in either order. |
| BlobHash.Decimal | src/lib.rs:183-185 | The length's text is a non-empty run of digits with no NUL, and it starts with "0" only for zero. |
| BlobHash.DecimalRoundTrip | src/lib.rs:183-185 | Reading the digits back gives the length. |
| BlobHash.FirstNulEndsHeader | src/lib.rs:183-194 | The first NUL of a blob object is the one that ends its header. |
| BlobHash.PreimageRoundTrip | src/lib.rs:183-194 | Parsing a blob object gives back the length and the data it was built from. |
| BlobHash.ConsistentHeaderDescribesSuffix | src/lib.rs:183-194 | When the length is the data's own, the header states the length of the bytes after the first NUL, and those bytes are the data. |
| BlobHash.PreimageInjective | src/lib.rs:183-194 | Different (length, data) pairs give different blob objects. |
| BlobHash.FileSha | src/lib.rs:180-200 | Hashing succeeds exactly when the path reads as bytes, following links, and the id is then the digest of the blob object built from the byte count and the bytes; otherwise it fails with an I/O error naming the path. |
| BlobHash.EqualShasMeanEqualContents | src/lib.rs:180-200 | Under an injective digest, two files with one id have byte-identical contents. |
| Unchanged.LocalShas | src/lib.rs:215 | A path has a local id exactly when hashing it succeeds, and the id is the hash. |
| Unchanged.ScanTopLevelFailure | src/lib.rs:212-224 | The top-level scan fails exactly when some top-level blob cannot be hashed, with an I/O error naming the first such blob. |
| Unchanged.ScanTopLevelContents | src/lib.rs:212-224 | A successful scan collects exactly the top-level blobs whose local id equals the remote id, and queues exactly the top-level subtrees. |
| Unchanged.ScanTopLevelSpec | src/lib.rs:212-224 | The top-level scan fails exactly when some top-level blob cannot be hashed, and it reports the first such blob. Otherwise it yields the matching blobs and queues every subtree. |
| Unchanged.RerootedSpec | src/lib.rs:232-236 | A subtree listing contributes exactly its blobs, each with its path under the subtree's path. |
| Unchanged.SubtreeBlobsSpec | src/lib.rs:228-240 | The nested blobs are exactly those of the queued subtrees that could be fetched. |
| Unchanged.FetchUnchangedSpec | src/lib.rs:202-253 | The run fails exactly when a top-level blob cannot be hashed, naming the first one. Otherwise the set holds exactly the top-level and nested blob paths whose local id equals the remote id. |
| Unchanged.NestedFailuresOnlyOmit | src/lib.rs:228-248 | Failed subtree fetches and failed nested hashes never fail the run. They only shrink the unchanged set. |
| Unchanged.UnchangedMeansSameId | src/lib.rs:242-252 | Every unchanged path hashes locally to the id some blob of the base tree records for it. |
| Selection.AddMatchesSpec | src/lib.rs:278-282 | One pattern adds exactly its matches that are not unchanged. |
| Selection.IncludePassSpec | src/lib.rs:276-284 | The include pass adds exactly the paths some pattern matches, less the unchanged ones. |
| Selection.RemoveMatchesSpec | src/lib.rs:288-290 | One exclude pattern removes exactly its matches, and removing an absent path is harmless. |
| Selection.ExcludePassSpec | src/lib.rs:286-292 | The exclude pass keeps exactly the paths no exclude pattern matches. |
| Selection.SelectSpec | src/lib.rs:270-292 | A path is a candidate iff an include pattern matches it, it is not unchanged, and no exclude pattern matches it. With no include list there are no candidates. |
| PathTransform.StripPrefix | src/lib.rs:320 | Stripping succeeds exactly when the prefix leads the path component-wise. The prefix followed by the rest is the path. |
| PathTransform.Parent | src/lib.rs:324 | Every non-empty path has a parent, and the parent followed by the last component is the path. |
| PathTransform.Flatten | src/lib.rs:324-327 | Flattening keeps exactly the last component, and the empty path stays empty. |
| PathTransform.StripSource | src/lib.rs:319-322 | Stripping the source succeeds exactly for paths under it and fails with the path and the source otherwise. |
| PathTransform.Destination | src/lib.rs:319-331 | A destination exists exactly for paths under the source directory, and it lies under the target directory. Below the target sits the file name (when flattened) or the path's position below the source. |
| PathTransform.FlattenKeepsFileName | src/lib.rs:324-327 | Flattening a one-component path changes nothing. |
| PathTransform.FlattenMergesSameName | src/lib.rs:324-331 | Files with one name in different directories share a destination once flattened. |
| Assembly.ClassifyMode | src/lib.rs:357-365 | Any execute bit gives 100755. Otherwise any read bit gives 100644. Otherwise the mode is unsupported. Each mode gets exactly one answer. |
| Assembly.Prepare | src/lib.rs:307-338 | Exactly the directories and links are skipped, and a missing path fails. A regular file fails exactly when it lies outside the source directory (with the strip error) or the service refuses its bytes (with a remote error), and is stored otherwise. A stored file carries its own path, its mode, its destination and the id of its uploaded bytes. |
| Assembly.Assemble | src/lib.rs:341-367 | On success every per-file result was a success. There is one entry per stored file, in order, with its destination, id and classified mode, and the entry paths are pairwise distinct. |
| Assembly.AssembledPaths | src/lib.rs:341-354 | On success the loop's lookup set is exactly the set of stored destinations. |
| Assembly.AssembleStopsAtFirstFailure | src/lib.rs:344-365 | The loop fails exactly when some item raises an error (its own, a repeated destination, or an unsupported mode), and it reports the first such item's error. |
| Assembly.RepeatedDestinationFails | src/lib.rs:351-354 | Two stored files with one destination make the loop fail. |
| Assembly.ConflictReportRepeatsDestination | src/lib.rs:351-353 | As written, a conflict report pairs the destination with itself. |
| Assembly.AssembleTracked | src/lib.rs:341-367 | The corrected loop records which file claimed each destination. The claimed destinations are exactly the entry paths. |
| Assembly.TrackedAgreesWithAssemble | src/lib.rs:341-367 | The corrected loop succeeds exactly when the loop as written does, with the same entries and the same errors, except that a conflict names the files. |
| Assembly.TrackedConflictNamesBothFiles | src/lib.rs:351-354 | Corrected: a conflict names two different files that both map to the reported destination. |
| Commit.FilesInSpec | src/lib.rs:308-310 | The files that get an entry are exactly the visited candidates that are regular files, each once. |
| Commit.FileCount | src/lib.rs:306-310 | A duplicate-free visiting order holds as many regular files as there are regular-file candidates in it. |
| Commit.FileCandidatesInOrder | src/lib.rs:306-310 | The regular files an enumeration visits are exactly the regular-file candidates. |
| Commit.KeptAreFiles | src/lib.rs:306-349 | When no per-file step fails, the stored items are the regular-file candidates in visiting order, each prepared from its own path. |
| Commit.SkippedAssembleNothing | src/lib.rs:308-310 | Candidates that are all directories or links give no entries. |
| Commit.TreeShapeInOrder | src/lib.rs:341-367 | In any visiting order, a successful loop builds exactly one entry per regular-file candidate, with distinct paths. |
| Commit.ConflictAmongPrepared | src/lib.rs:341-354 | Once every candidate is prepared, two different regular files with one destination are two stored items with one destination, so the loop fails. |
| Commit.ConflictInAnyOrder | src/lib.rs:341-354 | In any visiting order, two different regular files with one destination make the loop fail. |
| Commit.KeptComeFromOrder | src/lib.rs:304-338 | Every stored item comes from a regular file in the visiting order and sits at that file's destination. |
| Commit.KeptSourcesDistinct | src/lib.rs:304-338 | When the visiting order has no repeats, no file is stored twice. |
| Commit.CorrectedRunNamesBothFiles | src/lib.rs:341-354 | Corrected: a conflict the run reports names two different regular-file candidates, and both map to the reported destination. |
| Commit.PrepareFile | src/lib.rs:314-337 | A regular file under the source directory whose bytes the service accepts is stored with its destination, its mode and the id it was given. |
| Commit.GateReturnsBase | src/lib.rs:294-302 | As written, the run returns the base commit exactly when `always` is not set and the candidate set is empty. |
| Commit.CommitCarriesOptions | src/lib.rs:373-379 | A published commit has the base commit as its only parent and carries the configured message; the reference update is forced exactly when `force` is `Some(true)`. |
| Commit.CommittedTreeShape | src/lib.rs:341-371 | A published commit has one entry per regular-file candidate, with distinct paths. The base tree is reused exactly when no candidate is a regular file. |
| Commit.ConflictingFilesAbort | src/lib.rs:341-354 | Two different regular-file candidates with one destination fail the run, whatever the visiting order. |
| Commit.NothingNewReturnsBase | src/lib.rs:272-302 | When every top-level blob of the base tree can be hashed, every selected path already has its local id in the base tree and `always` is not set, the run returns the base commit. |
| Commit.DirectoriesAloneStillCommit | src/lib.rs:294-310 | As written, when every candidate is a directory or link and `always` is not set, a commit reusing the base tree is still published. |
| Commit.NothingToStoreGivesNoEntries | src/lib.rs:308-310 | Candidates that all exist and none of which is a regular file give the corrected loop success with no entries. |
| Commit.NoEntriesMeansNothingToStore | src/lib.rs:306-367 | A successful loop with no entries means every candidate exists and none is a regular file. |
| Commit.NoEntriesInOrder | src/lib.rs:306-367 | In any visiting order, the corrected loop succeeds with no entries exactly when every candidate exists and none is a regular file. |
| Commit.CorrectedGateOnEntries | src/lib.rs:294-371 | Corrected: without `always`, the run returns the base commit exactly when every candidate exists and no candidate is a regular file. A commit that reuses the base tree needs `always`. |
| Commit.SecondOfTwoConflicts | src/lib.rs:344-354 | Two stored files with one destination fail at the second. The loop as written reports the destination twice; the corrected loop names both files. |
| Commit.CollisionPaths | src/lib.rs:324-331 | Two files with one name in different directories are different paths with the same flattened destination under the target. |
| Commit.RegularModeStaysRegular | src/lib.rs:357-359 | The permission bits of git's regular-file mode classify as a regular file again. |
| Commit.FlattenCollisionReport | src/lib.rs:319-354 | Two files with one name in different directories (such as `build/a/x.txt` and `build/b/x.txt`), flattened into one target, fail. The loop as written reports the shared destination twice; the corrected loop names both files. |

## Left out

- SHA-1 and hex encoding: the digest is a parameter. Its collision resistance appears only as the injectivity premise of `BlobHash.EqualShasMeanEqualContents`.
- Glob syntax and expansion: each pattern's matches are a parameter. Unreadable matches are assumed to be already dropped, as the `filter_map(|entry| entry.ok())` at `src/lib.rs:278` and `src/lib.rs:288` does. Invalid patterns are assumed to be already dropped, as the `Pattern::new(line).ok()` at `src/bin.rs:27` and `src/bin.rs:33` does. The `?` on a malformed pattern (`glob::glob(...)?`) is not modelled.
- `commit` (`src/lib.rs:385-415`) is not part of this model. It canonicalizes the source directory, checks the workspace boundary and switches and restores the working directory; all of that is file-system behaviour. With a source set, glob results are relative to the source directory, yet `execute` still strips the source prefix from them. Whether a path can pass that strip depends on how the patterns are written, which is outside the model.
- Unchanged detection compares base-tree paths (repository-root-relative) with local paths (working-directory-relative) before any transform. The model keeps the two path spaces as the code does, without relating them.
- The remote calls after assembly (tree creation, commit creation, reference update, including a rejected non-fast-forward update) are recorded in the `Commit.Outcome` value, not performed. Their failures are not modelled. Blob-creation failure is modelled as `RemoteError`.
- Failures of the calls before assembly are not modelled either: `current_dir()?` (`src/lib.rs:203`), `try_get_commit()?` (`src/lib.rs:206` and `src/lib.rs:257`), `try_get_tree(false)?` (`src/lib.rs:207`), and `base.try_get_tree(false)?` (`src/lib.rs:369`). The base commit and its top-level tree are given in the `Commit.Env` as already fetched.
- Parallelism (`rayon`): per-file results are collected in the candidates' visiting order, which is a parameter. The subtree scan is a sequence whose order does not affect the resulting set.
- A file changing between its size query and its read: both see the same node. `BlobHash.ConsistentHeaderDescribesSuffix` states the property that holds when the two agree.
- Blobs already stored before a later conflict or mode error are not rolled back in the action. The model has no remote state to show them.
- `IoError(path)`: the path is a tag the model adds so that lemmas can say which item failed. The `io::Error` returned by `std::fs::metadata` and `std::fs::read` (`src/lib.rs:184`, `src/lib.rs:187`, `src/lib.rs:314-315`) does not name the path, so the action's error does not show it.
- Logging (`atc::log`) and the error message texts are not modelled. Errors are constructors.
- `src/bin.rs` input parsing is not part of this model, except the builder chain `Options.FromInputs`.
- BlobHash.FileSha: an existing regular file always reads. The failure of `metadata` or `read` on an unreadable top-level file (`src/lib.rs:184` and `src/lib.rs:187`), which would end the run at `src/lib.rs:215`, is not modelled; only a missing path, a directory or a dangling link fails.
- Assembly.Prepare: `std::fs::read` and `metadata` may fail on an existing file, for example when it is unreadable. Here a `File` node always reads, so such failures show up only as a missing path.

## Findings

| source | as written | input that shows it | evidently intended | confidence | as-written member | corrected member |
|---|---|---|---|---|---|---|
| src/lib.rs:294-302 | The "nothing to commit" gate tests the candidate set, before directories and links are dropped at `src/lib.rs:308-310`. | `always` unset, include pattern `*`, every file identical to the base tree, one top-level directory `src`. The only candidate is `src` and there are no entries, yet a commit reusing the base tree is created and the reference is moved. | Return the base commit when no entry is left to store, unless `always` is set. | not executed | Commit.DirectoriesAloneStillCommit | Commit.CorrectedGateOnEntries |
| src/lib.rs:351-353 | `lookup.replace(path)` returns the equal path it displaced, so the conflict message names the destination twice and neither file. | `build/a/x.txt` and `build/b/x.txt` with flatten on and target `dist`: the error reads `[ 'dist/x.txt', 'dist/x.txt' ]` (Commit.FlattenCollisionReport). | Name the two files that collide on the destination. | not executed | Assembly.ConflictReportRepeatsDestination | Commit.CorrectedRunNamesBothFiles |

=== FILE: Assembly.dfy ===
/** The per-file work of `execute` and the loop that turns its results into
    tree entries (lines 304-367). Each candidate is prepared on its own (in
    parallel in the action, in a fixed order here); the loop then walks the
    collected results in that order, stops at the first error, rejects a
    destination seen before, and classifies each file's permission bits. */
module Assembly {
  import opened Types
  import opened Options
  import opened PathTransform

  const ExecuteBits: bv32 := 0x49         // 0o111
  const ReadBits: bv32 := 0x124           // 0o444
  const ExecutableMode: bv32 := 0x81ED    // 0o100755, git's mode for an executable file
  const RegularMode: bv32 := 0x81A4       // 0o100644, git's mode for a regular file

  /** The owner, the group or others may execute. */
  predicate ExecutableBySomeone(mode: bv32)
  {
    mode & 0x40 != 0 || mode & 0x8 != 0 || mode & 0x1 != 0
  }

  /** The owner, the group or others may read. */
  predicate ReadableBySomeone(mode: bv32)
  {
    mode & 0x100 != 0 || mode & 0x20 != 0 || mode & 0x4 != 0
  }

  /** Lines 357-365: the git mode of a file from its `st_mode`. Every mode gets
      exactly one of the three answers. */
  function ClassifyMode(mode: bv32): (r: Result<bv32>)
    ensures r == Ok(ExecutableMode) <==> ExecutableBySomeone(mode)
    ensures r == Ok(RegularMode) <==> !ExecutableBySomeone(mode) && ReadableBySomeone(mode)
    ensures r == Err(UnsupportedMode(mode)) <==> !ExecutableBySomeone(mode) && !ReadableBySomeone(mode)
  {
    if mode & ExecuteBits > 0 then Ok(ExecutableMode)
    else if mode & ReadBits > 0 then Ok(RegularMode)
    else Err(UnsupportedMode(mode))
  }

  /** What one candidate contributes: where it came from, the id of the blob
      stored for it, where it goes, and its raw `st_mode`. */
  datatype Prepared = Prepared(source: Path, sha: Sha, destination: Path, mode: bv32)

  /** The per-candidate closure (lines 307-338). Links and directories are
      skipped; a path that cannot be read fails; otherwise the destination is
      computed and the bytes are stored as a blob. */
  function Prepare(path: Path, nodes: map<Path, Node>, options: CommitOptions,
                   upload: seq<byte> -> Option<Sha>): (r: Result<Option<Prepared>>)
    ensures r == Ok(None) <==> path in nodes && !nodes[path].File?
    ensures path !in nodes ==> r == Err(IoError(path))
    ensures r.Ok? && r.value.Some? ==>
      && path in nodes && nodes[path].File?
      && r.value.value.source == path
      && r.value.value.mode == nodes[path].mode
      && Destination(path, options.source, options.flatten, options.target) == Ok(r.value.value.destination)
      && upload(nodes[path].data) == Some(r.value.value.sha)
    ensures path in nodes && nodes[path].File? ==>
      (r.Err? <==> Destination(path, options.source, options.flatten, options.target).Err? || upload(nodes[path].data).None?)
    ensures path in nodes && nodes[path].File? && Destination(path, options.source, options.flatten, options.target).Err? ==>
      r == Err(Destination(path, options.source, options.flatten, options.target).error)
    ensures (path in nodes && nodes[path].File? && Destination(path, options.source, options.flatten, options.target).Ok?
             && upload(nodes[path].data).None?) ==>
      r == Err(RemoteError)
    ensures (path in nodes && nodes[path].File? && Destination(path, options.source, options.flatten, options.target).Ok?
             && upload(nodes[path].data).Some?) ==>
      r.Ok? && r.value.Some?
  {
    if path in nodes && (nodes[path].Link? || nodes[path].Directory?) then Ok(None)
    else if path !in nodes then Err(IoError(path))
    else
      var file := nodes[path];
      var destination :- Destination(path, options.source, options.flatten, options.target);
      match upload(file.data)
      case None => Err(RemoteError)
      case Some(sha) => Ok(Some(Prepared(path, sha, destination, file.mode)))
  }

  /** The items that were prepared rather than skipped or failed, in order. */
  function Kept(results: seq<Result<Option<Prepared>>>): seq<Prepared>
  {
    if results == [] then []
    else
      var last := results[|results| - 1];
      Kept(results[..|results| - 1]) + (if last.Ok? && last.value.Some? then [last.value.value] else [])
  }

  /** The paths a list of entries occupies: the loop's `lookup` set. */
  function Paths(tree: seq<TreeEntry>): set<Path>
  {
    set k | 0 <= k < |tree| :: tree[k].path
  }

  lemma PathsAppend(tree: seq<TreeEntry>, e: TreeEntry)
    ensures Paths(tree + [e]) == Paths(tree) + {e.path}
  {
    var t := tree + [e];
    assert t[|tree|] == e;
    forall d | d in Paths(tree)
      ensures d in Paths(t)
    {
      var k :| 0 <= k < |tree| && tree[k].path == d;
      assert t[k] == tree[k];
    }
  }

  predicate DistinctPaths(tree: seq<TreeEntry>)
  {
    forall i, j :: 0 <= i < j < |tree| ==> tree[i].path != tree[j].path
  }

  /** e is the tree entry the loop builds for p. */
  predicate EntryFor(p: Prepared, e: TreeEntry)
  {
    e.Blob? && e.path == p.destination && e.sha == p.sha && ClassifyMode(p.mode) == Ok(e.mode)
  }

  /** The aggregation loop (lines 341-367), written as "the loop over all but the
      last result, then one more step". On success there is one entry per
      prepared item, in order, with pairwise-distinct paths. */
  function Assemble(results: seq<Result<Option<Prepared>>>): (r: Result<seq<TreeEntry>>)
    ensures r.Ok? ==> forall i :: 0 <= i < |results| ==> results[i].Ok?
    ensures r.Ok? ==> |r.value| == |Kept(results)|
    ensures r.Ok? ==> forall k :: 0 <= k < |r.value| ==> EntryFor(Kept(results)[k], r.value[k])
    ensures r.Ok? ==> DistinctPaths(r.value)
    decreases |results|
  {
    if results == [] then Ok([])
    else
      var tree :- Assemble(results[..|results| - 1]);
      match results[|results| - 1]
      case Err(e) => Err(e)
      case Ok(None) => Ok(tree)
      case Ok(Some(p)) =>
        if p.destination in Paths(tree) then Err(PathConflict(p.destination, p.destination))
        else
          var mode :- ClassifyMode(p.mode);
          Ok(tree + [Blob(p.destination, p.sha, mode)])
  }

  /** The destinations of the prepared items. */
  function KeptDestinations(results: seq<Result<Option<Prepared>>>): set<Path>
  {
    set p | p in Kept(results) :: p.destination
  }

  /** The error the item at index i raises when the loop reaches it, if any. */
  function Failure(results: seq<Result<Option<Prepared>>>, i: int): Option<Error>
    requires 0 <= i < |results|
  {
    match results[i]
    case Err(e) => Some(e)
    case Ok(None) => None
    case Ok(Some(p)) =>
      if p.destination in KeptDestinations(results[..i]) then Some(PathConflict(p.destination, p.destination))
      else if ClassifyMode(p.mode).Err? then Some(ClassifyMode(p.mode).error)
      else None
  }

  /** On success, the loop's lookup set holds exactly the prepared destinations. */
  lemma AssembledPaths(results: seq<Result<Option<Prepared>>>)
    requires Assemble(results).Ok?
    ensures Paths(Assemble(results).value) == KeptDestinations(results)
  {
    var tree := Assemble(results).value;
    var kept := Kept(results);
    forall d | d in Paths(tree)
      ensures d in KeptDestinations(results)
    {
      var k :| 0 <= k < |tree| && tree[k].path == d;
      assert EntryFor(kept[k], tree[k]);
      assert kept[k] in kept;
    }
    forall d | d in KeptDestinations(results)
      ensures d in Paths(tree)
    {
      var p :| p in kept && p.destination == d;
      var k :| 0 <= k < |kept| && kept[k] == p;
      assert EntryFor(kept[k], tree[k]);
    }
  }

  lemma FailureOfPrefix(results: seq<Result<Option<Prepared>>>, m: int, i: int)
    requires 0 <= i < m <= |results|
    ensures Failure(results[..m], i) == Failure(results, i)
  {
    assert results[..m][..i] == results[..i];
    assert results[..m][i] == results[i];
  }

  /** Appending one item: the earlier items' failures are unchanged. */
  lemma FailuresOfPrefix(results: seq<Result<Option<Prepared>>>)
    requires results != []
    ensures forall j :: 0 <= j < |results| - 1 ==> Failure(results[..|results| - 1], j) == Failure(results, j)
  {
    forall j | 0 <= j < |results| - 1
      ensures Failure(results[..|results| - 1], j) == Failure(results, j)
    {
      FailureOfPrefix(results, |results| - 1, j);
    }
  }

  /** First error wins: the loop fails exactly when some item raises an error,
      and then it reports the error of the first such item in collected order. */
  lemma {:induction false} AssembleStopsAtFirstFailure(results: seq<Result<Option<Prepared>>>)
    ensures Assemble(results).Err? <==> exists i :: 0 <= i < |results| && Failure(results, i).Some?
    ensures Assemble(results).Err? ==>
      exists i :: 0 <= i < |results| && Failure(results, i) == Some(Assemble(results).error)
        && forall j :: 0 <= j < i ==> Failure(results, j).None?
    decreases |results|
  {
    if results != [] {
      var n := |results|;
      var pre := results[..n - 1];
      AssembleStopsAtFirstFailure(pre);
      FailuresOfPrefix(results);
      if Assemble(pre).Err? {
        var i :| 0 <= i < |pre| && Failure(pre, i) == Some(Assemble(pre).error)
          && forall j :: 0 <= j < i ==> Failure(pre, j).None?;
        assert Assemble(results) == Assemble(pre);
        assert Failure(results, i) == Some(Assemble(results).error);
      } else {
        AssembledPaths(pre);
        assert results[..n - 1] == pre;
        assert forall j :: 0 <= j < n - 1 ==> Failure(results, j).None?;
        if Assemble(results).Err? {
          assert Failure(results, n - 1) == Some(Assemble(results).error);
        } else {
          assert Failure(results, n - 1).None?;
          assert forall j :: 0 <= j < n ==> Failure(results, j).None?;
        }
      }
    }
  }

  /** Two prepared items with one destination make the loop fail. */
  lemma RepeatedDestinationFails(results: seq<Result<Option<Prepared>>>, a: int, b: int)
    requires 0 <= a < b < |Kept(results)|
    requires Kept(results)[a].destination == Kept(results)[b].destination
    ensures Assemble(results).Err?
  {
  }

  // The conflict report. `lookup.replace(path)` hands back the equal path it
  // displaced, so the action's message names the destination twice and neither
  // of the two files. The corrected loop below tracks which file claimed each
  // destination and reports both.

  /** An item's own error is never a conflict report: those come only from the loop. */
  predicate NoConflictErrors(results: seq<Result<Option<Prepared>>>)
  {
    forall i :: 0 <= i < |results| && results[i].Err? ==>
      !results[i].error.PathConflict? && !results[i].error.SourceConflict?
  }

  /** As written: a conflict is always reported as the destination paired with itself. */
  lemma {:induction false} ConflictReportRepeatsDestination(results: seq<Result<Option<Prepared>>>)
    requires NoConflictErrors(results)
    ensures Assemble(results).Err? && Assemble(results).error.PathConflict? ==>
      Assemble(results).error.path == Assemble(results).error.other
    decreases |results|
  {
    if results != [] {
      ConflictReportRepeatsDestination(results[..|results| - 1]);
    }
  }

  /** The entries built so far, and which source claimed each destination. */
  datatype Assembled = Assembled(entries: seq<TreeEntry>, sources: map<Path, Path>)

  /** The corrected loop: the same walk, reporting a conflict with both files. */
  function AssembleTracked(results: seq<Result<Option<Prepared>>>): (r: Result<Assembled>)
    ensures r.Ok? ==> r.value.sources.Keys == Paths(r.value.entries)
    ensures r.Ok? ==> forall d :: d in r.value.sources ==>
      exists p :: p in Kept(results) && p.destination == d && p.source == r.value.sources[d]
    decreases |results|
  {
    if results == [] then Ok(Assembled([], map[]))
    else
      var done :- AssembleTracked(results[..|results| - 1]);
      match results[|results| - 1]
      case Err(e) => Err(e)
      case Ok(None) => Ok(done)
      case Ok(Some(p)) =>
        if p.destination in done.sources then Err(SourceConflict(p.destination, done.sources[p.destination], p.source))
        else
          var mode :- ClassifyMode(p.mode);
          var entry := Blob(p.destination, p.sha, mode);
          PathsAppend(done.entries, entry);
          Ok(Assembled(done.entries + [entry], done.sources[p.destination := p.source]))
  }

  /** The corrected loop succeeds and fails exactly where the action's does, with
      the same entries and the same errors apart from the conflict report. */
  lemma {:induction false} TrackedAgreesWithAssemble(results: seq<Result<Option<Prepared>>>)
    requires NoConflictErrors(results)
    ensures AssembleTracked(results).Ok? <==> Assemble(results).Ok?
    ensures Assemble(results).Ok? ==> AssembleTracked(results).value.entries == Assemble(results).value
    ensures Assemble(results).Err? && !Assemble(results).error.PathConflict? ==>
      AssembleTracked(results).error == Assemble(results).error
    ensures Assemble(results).Err? && Assemble(results).error.PathConflict? ==>
      AssembleTracked(results).error.SourceConflict?
      && AssembleTracked(results).error.destination == Assemble(results).error.path
    decreases |results|
  {
    if results != [] {
      TrackedAgreesWithAssemble(results[..|results| - 1]);
    }
  }

  /** The prepared items come from pairwise-distinct candidates. */
  predicate DistinctSources(kept: seq<Prepared>)
  {
    forall a, b :: 0 <= a < b < |kept| ==> kept[a].source != kept[b].source
  }

  /** Corrected: a conflict names two different files that both map to the destination. */
  lemma {:induction false} TrackedConflictNamesBothFiles(results: seq<Result<Option<Prepared>>>)
    requires NoConflictErrors(results)
    requires DistinctSources(Kept(results))
    ensures AssembleTracked(results).Err? && AssembleTracked(results).error.SourceConflict? ==>
      var e := AssembleTracked(results).error;
      && e.first != e.second
      && (exists a :: a in Kept(results) && a.source == e.first && a.destination == e.destination)
      && (exists b :: b in Kept(results) && b.source == e.second && b.destination == e.destination)
    decreases |results|
  {
    if results != [] {
      var n := |results|;
      var pre := results[..n - 1];
      var kept := Kept(results);
      var kpre := Kept(pre);
      assert kpre <= kept;
      assert DistinctSources(kpre) by {
        forall a, b | 0 <= a < b < |kpre|
          ensures kpre[a].source != kpre[b].source
        {
          assert kpre[a] == kept[a] && kpre[b] == kept[b];
        }
      }
      assert NoConflictErrors(pre) by {
        forall i | 0 <= i < |pre| && pre[i].Err?
          ensures !pre[i].error.PathConflict? && !pre[i].error.SourceConflict?
        {
          assert pre[i] == results[i];
        }
      }
      TrackedConflictNamesBothFiles(pre);
      if AssembleTracked(pre).Err? {
        assert AssembleTracked(results) == AssembleTracked(pre);
        assert forall x :: x in kpre ==> x in kept;
      } else if AssembleTracked(results).Err? && AssembleTracked(results).error.SourceConflict? {
        var done := AssembleTracked(pre).value;
        assert results[n - 1].Ok? && results[n - 1].value.Some?;
        var p := results[n - 1].value.value;
        var d := p.destination;
        assert d in done.sources;
        var q :| q in kpre && q.destination == d && q.source == done.sources[d];
        var k :| 0 <= k < |kpre| && kpre[k] == q;
        assert kept == kpre + [p];
        assert kept[k] == q && kept[|kept| - 1] == p;
        assert kept[|kept| - 1] in kept && q in kept;
      }
    }
  }
}

=== FILE: BlobHash.dfy ===
/** `get_file_sha`: the git blob id of a local file. The id is the digest of the
    blob object `"blob " ++ decimal(length) ++ NUL ++ data`; this module builds
    that object and reads it back, and leaves the digest itself (SHA-1, hex
    encoded) as a parameter. */
module BlobHash {
  import opened Types

  /** "blob " in ASCII: git's object-kind tag followed by a space. */
  const BlobTag: seq<byte> := [0x62, 0x6C, 0x6F, 0x62, 0x20]

  const Nul: byte := 0

  predicate IsDigit(b: byte)
  {
    0x30 <= b <= 0x39
  }

  predicate AllDigits(s: seq<byte>)
  {
    forall i :: 0 <= i < |s| ==> IsDigit(s[i])
  }

  function DigitByte(d: nat): (b: byte)
    requires d < 10
    ensures IsDigit(b) && (b - 0x30) as nat == d
  {
    (0x30 + d) as byte
  }

  /** The value of a run of decimal digits, most significant first. */
  function DigitsValue(s: seq<byte>): nat
    requires AllDigits(s)
  {
    if s == [] then 0 else 10 * DigitsValue(s[..|s| - 1]) + (s[|s| - 1] - 0x30) as nat
  }

  /** How Rust's `{}` writes an unsigned length: decimal digits, no sign, and no
      leading zero except in "0" itself. */
  function Decimal(n: nat): (r: seq<byte>)
    ensures 0 < |r| && AllDigits(r)
    ensures r[0] == 0x30 <==> n == 0
    ensures Nul !in r
    decreases n
  {
    if n < 10 then [DigitByte(n)] else Decimal(n / 10) + [DigitByte(n % 10)]
  }

  lemma {:induction false} DecimalRoundTrip(n: nat)
    ensures DigitsValue(Decimal(n)) == n
    decreases n
  {
    if n >= 10 {
      DecimalRoundTrip(n / 10);
      var d := Decimal(n);
      assert d[..|d| - 1] == Decimal(n / 10);
    }
  }

  /** The blob object whose digest is the file's id: lines 183-194 build the
      header from the length the size query reported and append the bytes the read returned. */
  function Preimage(length: nat, data: seq<byte>): seq<byte>
  {
    BlobTag + Decimal(length) + [Nul] + data
  }

  /** The index of the first NUL byte at or after `from`, if there is one. */
  function FindNul(s: seq<byte>, from: nat): (r: Option<nat>)
    requires from <= |s|
    ensures r.Some? ==> from <= r.value < |s| && s[r.value] == Nul
    ensures r.Some? ==> forall i :: from <= i < r.value ==> s[i] != Nul
    ensures r.None? ==> forall i :: from <= i < |s| ==> s[i] != Nul
    decreases |s| - from
  {
    if from == |s| then None
    else if s[from] == Nul then Some(from)
    else FindNul(s, from + 1)
  }

  /** Reads a blob object back: the length its header declares and the bytes after the NUL. */
  function ParsePreimage(s: seq<byte>): Option<(nat, seq<byte>)>
  {
    if |s| < |BlobTag| || s[..|BlobTag|] != BlobTag then None
    else
      match FindNul(s, |BlobTag|)
      case None => None
      case Some(k) =>
        var digits := s[|BlobTag|..k];
        if digits != [] && AllDigits(digits) then Some((DigitsValue(digits), s[k + 1..])) else None
  }

  /** The header of a blob object ends at its first NUL: neither the tag nor the digits contain one. */
  lemma FirstNulEndsHeader(length: nat, data: seq<byte>)
    ensures var s := Preimage(length, data);
      FindNul(s, 0) == FindNul(s, |BlobTag|) == Some(|BlobTag| + |Decimal(length)|)
  {
    var s := Preimage(length, data);
    var d := Decimal(length);
    var k := |BlobTag| + |d|;
    assert s[k] == Nul;
    forall i | 0 <= i < k
      ensures s[i] != Nul
    {
      if i >= |BlobTag| {
        assert s[i] == d[i - |BlobTag|];
      }
    }
    var r := FindNul(s, |BlobTag|);
    var r0 := FindNul(s, 0);
    assert r.Some? && r.value == k;
    assert r0.Some? && r0.value == k;
  }

  /** Parsing a blob object gives back the length and the data it was built from. */
  lemma {:induction false} PreimageRoundTrip(length: nat, data: seq<byte>)
    ensures ParsePreimage(Preimage(length, data)) == Some((length, data))
  {
    var s := Preimage(length, data);
    var d := Decimal(length);
    var k := |BlobTag| + |d|;
    FirstNulEndsHeader(length, data);
    assert s[..|BlobTag|] == BlobTag;
    assert s[|BlobTag|..k] == d;
    assert s[k + 1..] == data;
    DecimalRoundTrip(length);
  }

  /** When the length is the data's own (no write between the size query and the
      read), the data is exactly what follows the first NUL, and the header
      declares the length of that suffix. */
  lemma {:induction false} ConsistentHeaderDescribesSuffix(data: seq<byte>)
    ensures var s := Preimage(|data|, data);
      && FindNul(s, 0).Some?
      && s[FindNul(s, 0).value + 1..] == data
      && ParsePreimage(s).Some?
      && ParsePreimage(s).value.0 == |s[FindNul(s, 0).value + 1..]|
  {
    var s := Preimage(|data|, data);
    FirstNulEndsHeader(|data|, data);
    assert s[|BlobTag| + |Decimal(|data|)| + 1..] == data;
    PreimageRoundTrip(|data|, data);
  }

  /** Different (length, data) pairs give different blob objects. */
  lemma PreimageInjective(l1: nat, d1: seq<byte>, l2: nat, d2: seq<byte>)
    requires Preimage(l1, d1) == Preimage(l2, d2)
    ensures l1 == l2 && d1 == d2
  {
    PreimageRoundTrip(l1, d1);
    PreimageRoundTrip(l2, d2);
  }

  /** `get_file_sha` on a working tree: the size query and the read both follow
      links, and a missing path, a directory or a dangling link fails. Both reads
      see the same node here. */
  function FileSha(nodes: map<Path, Node>, path: Path, digest: seq<byte> -> Sha): (r: Result<Sha>)
    ensures r.Ok? <==> path in nodes && Contents(nodes[path]).Some?
    ensures r.Err? ==> r.error == IoError(path)
    ensures r.Ok? ==> r.value == digest(Preimage(|Contents(nodes[path]).value|, Contents(nodes[path]).value))
  {
    if path !in nodes then Err(IoError(path))
    else
      match Contents(nodes[path])
      case None => Err(IoError(path))
      case Some(data) => Ok(digest(Preimage(|data|, data)))
  }

  /** With an injective digest, equal ids mean byte-identical contents. */
  lemma {:induction false} EqualShasMeanEqualContents(nodes: map<Path, Node>, p: Path, q: Path, digest: seq<byte> -> Sha)
    requires forall a, b :: digest(a) == digest(b) ==> a == b
    requires FileSha(nodes, p, digest).Ok? && FileSha(nodes, q, digest).Ok?
    requires FileSha(nodes, p, digest).value == FileSha(nodes, q, digest).value
    ensures Contents(nodes[p]) == Contents(nodes[q])
  {
    var dp := Contents(nodes[p]).value;
    var dq := Contents(nodes[q]).value;
    assert digest(Preimage(|dp|, dp)) == digest(Preimage(|dq|, dq));
    PreimageInjective(|dp|, dp, |dq|, dq);
  }
}

=== FILE: Commit.dfy ===
/** `execute`: the whole diff-and-assembly run against one base commit. The
    remote service, the working tree, glob expansion, the digest and the order
    in which the candidate set is visited are all given in an `Env`; the run's
    result says what the action returns and which tree and commit it asks the
    service for. */
module Commit {
  import opened Types
  import opened Options
  import opened Unchanged
  import opened Selection
  import opened PathTransform
  import opened Assembly

  datatype Env = Env(
    base: Sha,                               // the commit the reference points at
    baseTree: seq<TreeEntry>,                // the top level of that commit's tree
    subtrees: map<Sha, seq<TreeEntry>>,      // recursive listings that can be fetched; a missing id is a failed fetch
    upload: seq<byte> -> Option<Sha>,        // blob creation; None when the service refuses
    nodes: map<Path, Node>,                  // the working tree, relative to the working directory
    glob: Pattern -> seq<Path>,              // the matches glob expansion yields for a pattern
    digest: seq<byte> -> Sha,                // SHA-1, hex encoded
    enumerate: set<Path> -> seq<Path>)       // the order in which a set of candidates is visited

  /** The tree the new commit carries. */
  datatype TreeRequest =
    | ReuseBaseTree                          // the base commit's own tree
    | LayerOntoBase(entries: seq<TreeEntry>) // a new tree: the base tree with these entries laid over it

  datatype Outcome =
    | BaseReturned(sha: Sha)                 // nothing is stored: no blob, tree or commit
    | Committed(tree: TreeRequest, parent: Sha, message: string, force: bool)

  predicate Distinct(order: seq<Path>)
  {
    forall i, j :: 0 <= i < j < |order| ==> order[i] != order[j]
  }

  /** order visits every element of s exactly once. */
  ghost predicate Enumerates(order: seq<Path>, s: set<Path>)
  {
    Distinct(order) && forall c :: c in order <==> c in s
  }

  /** A `HashSet` iteration order: some order for every set, each element once. */
  ghost predicate ValidEnumerator(enumerate: set<Path> -> seq<Path>)
  {
    forall s :: Enumerates(enumerate(s), s)
  }

  function UnchangedPaths(env: Env): Result<set<Path>>
  {
    FetchUnchanged(env.baseTree, env.subtrees, LocalShas(env.nodes, env.digest))
  }

  function Candidates(env: Env, options: CommitOptions, unmodified: set<Path>): set<Path>
  {
    Select(options.includes, options.excludes, unmodified, env.glob)
  }

  /** Lines 294-302: without `always`, an empty candidate set ends the run. */
  predicate SkipsCommit(always: Option<bool>, candidates: set<Path>)
  {
    always != Some(true) && candidates == {}
  }

  /** Lines 306-339: every candidate, in visiting order, through the per-file closure. */
  function PrepareAll(order: seq<Path>, env: Env, options: CommitOptions): (results: seq<Result<Option<Prepared>>>)
    ensures Prepares(order, results, env, options)
  {
    seq(|order|, i requires 0 <= i < |order| => Prepare(order[i], env.nodes, options, env.upload))
  }

  /** results[i] is what preparing order[i] gives. */
  predicate Prepares(order: seq<Path>, results: seq<Result<Option<Prepared>>>, env: Env, options: CommitOptions)
  {
    |results| == |order| && forall i :: 0 <= i < |order| ==> results[i] == Prepare(order[i], env.nodes, options, env.upload)
  }

  /** Lines 369-382: with no entries the base tree is reused; the new commit has
      the base commit as its only parent, and `force` defaults to off. */
  function Publish(tree: seq<TreeEntry>, env: Env, options: CommitOptions): Outcome
  {
    Committed(if tree == [] then ReuseBaseTree else LayerOntoBase(tree), env.base, options.message, options.force == Some(true))
  }

  /** `execute` as written (lines 255-383). */
  function Execute(env: Env, options: CommitOptions): Result<Outcome>
  {
    var unmodified :- UnchangedPaths(env);
    var candidates := Candidates(env, options, unmodified);
    if SkipsCommit(options.always, candidates) then Ok(BaseReturned(env.base))
    else
      var tree :- Assemble(PrepareAll(env.enumerate(candidates), env, options));
      Ok(Publish(tree, env, options))
  }

  // Facts about the visiting order and the per-file results.

  /** The regular files of order, in order. */
  function FilesIn(order: seq<Path>, nodes: map<Path, Node>): seq<Path>
  {
    if order == [] then []
    else
      var c := order[|order| - 1];
      FilesIn(order[..|order| - 1], nodes) + (if c in nodes && nodes[c].File? then [c] else [])
  }

  /** The candidates that are regular files: the ones that get a tree entry. */
  function FileCandidates(nodes: map<Path, Node>, candidates: set<Path>): set<Path>
  {
    set c | c in candidates && c in nodes && nodes[c].File?
  }

  lemma {:induction false} FilesInSpec(order: seq<Path>, nodes: map<Path, Node>)
    requires Distinct(order)
    ensures Distinct(FilesIn(order, nodes))
    ensures forall c :: c in FilesIn(order, nodes) <==> c in order && c in nodes && nodes[c].File?
    decreases |order|
  {
    if order != [] {
      var pre := order[..|order| - 1];
      var c := order[|order| - 1];
      FilesInSpec(pre, nodes);
      assert forall x :: x in order <==> x in pre || x == c;
      assert c !in pre;
    }
  }

  lemma {:induction false} DistinctCard(s: seq<Path>)
    requires Distinct(s)
    ensures |set c | c in s| == |s|
    decreases |s|
  {
    if s != [] {
      var pre := s[..|s| - 1];
      var c := s[|s| - 1];
      DistinctCard(pre);
      assert (set x | x in s) == (set x | x in pre) + {c};
      assert c !in pre;
    }
  }

  /** The regular files an enumeration visits are the regular-file candidates. */
  lemma FileCandidatesInOrder(order: seq<Path>, candidates: set<Path>, nodes: map<Path, Node>)
    requires Enumerates(order, candidates)
    ensures (set c | c in order && c in nodes && nodes[c].File?) == FileCandidates(nodes, candidates)
  {
  }

  /** A duplicate-free order holds as many regular files as FilesIn keeps. */
  lemma FileCount(order: seq<Path>, nodes: map<Path, Node>)
    requires Distinct(order)
    ensures |FilesIn(order, nodes)| == |set c | c in order && c in nodes && nodes[c].File?|
  {
    FilesInSpec(order, nodes);
    var files := FilesIn(order, nodes);
    DistinctCard(files);
    assert (set c | c in files) == (set c | c in order && c in nodes && nodes[c].File?);
  }

  /** When every per-file result is a success, the prepared items are exactly
      the regular files of the visiting order, each prepared from its own path. */
  lemma {:induction false} KeptAreFiles(order: seq<Path>, results: seq<Result<Option<Prepared>>>, env: Env, options: CommitOptions)
    requires Prepares(order, results, env, options)
    requires forall i :: 0 <= i < |results| ==> results[i].Ok?
    ensures |Kept(results)| == |FilesIn(order, env.nodes)|
    ensures forall k :: 0 <= k < |Kept(results)| ==>
      Prepare(FilesIn(order, env.nodes)[k], env.nodes, options, env.upload) == Ok(Some(Kept(results)[k]))
    decreases |order|
  {
    if order != [] {
      var n := |order|;
      KeptAreFiles(order[..n - 1], results[..n - 1], env, options);
      var c := order[n - 1];
      assert results[n - 1] == Prepare(c, env.nodes, options, env.upload);
    }
  }

  /** Preparing nothing but directories and links assembles no entries. */
  lemma {:induction false} SkippedAssembleNothing(results: seq<Result<Option<Prepared>>>)
    requires forall i :: 0 <= i < |results| ==> results[i] == Ok(None)
    ensures Assemble(results) == Ok([])
    ensures AssembleTracked(results).Ok? && AssembleTracked(results).value.entries == []
    decreases |results|
  {
    if results != [] {
      SkippedAssembleNothing(results[..|results| - 1]);
    }
  }

  // Properties of the run.

  /** As written, the run returns the base commit, storing nothing, exactly when
      `always` is not set and the candidate set is empty. */
  lemma GateReturnsBase(env: Env, options: CommitOptions)
    requires UnchangedPaths(env).Ok?
    ensures Execute(env, options).Ok? && Execute(env, options).value.BaseReturned? <==>
      SkipsCommit(options.always, Candidates(env, options, UnchangedPaths(env).value))
    ensures Execute(env, options).Ok? && Execute(env, options).value.BaseReturned? ==>
      Execute(env, options).value.sha == env.base
  {
  }

  /** The loop, on any visiting order, builds one entry per regular file of the
      order, with distinct paths. */
  lemma TreeShapeInOrder(order: seq<Path>, env: Env, options: CommitOptions)
    requires Distinct(order)
    requires Assemble(PrepareAll(order, env, options)).Ok?
    ensures |Assemble(PrepareAll(order, env, options)).value| == |set c | c in order && c in env.nodes && env.nodes[c].File?|
    ensures DistinctPaths(Assemble(PrepareAll(order, env, options)).value)
  {
    var results := PrepareAll(order, env, options);
    assert forall i :: 0 <= i < |results| ==> results[i].Ok?;
    KeptAreFiles(order, results, env, options);
    FileCount(order, env.nodes);
  }

  /** A commit the run publishes has the base commit as its only parent and
      carries the configured message and force flag (unset means no force). */
  lemma CommitCarriesOptions(env: Env, options: CommitOptions)
    requires Execute(env, options).Ok? && Execute(env, options).value.Committed?
    ensures var o := Execute(env, options).value;
      o.parent == env.base && o.message == options.message && o.force == (options.force == Some(true))
  {
  }

  /** A commit the run publishes has one entry per candidate that is a regular
      file, with pairwise-distinct paths; the base tree is reused exactly when no
      candidate is a regular file. */
  lemma CommittedTreeShape(env: Env, options: CommitOptions)
    requires ValidEnumerator(env.enumerate)
    requires Execute(env, options).Ok? && Execute(env, options).value.Committed?
    ensures var o := Execute(env, options).value;
      var files := FileCandidates(env.nodes, Candidates(env, options, UnchangedPaths(env).value));
      && (o.tree.ReuseBaseTree? <==> files == {})
      && (o.tree.LayerOntoBase? ==> DistinctPaths(o.tree.entries) && |o.tree.entries| == |files|)
  {
    var unmodified := UnchangedPaths(env).value;
    var candidates := Candidates(env, options, unmodified);
    var order := env.enumerate(candidates);
    var results := PrepareAll(order, env, options);
    assert !SkipsCommit(options.always, candidates);
    assert Assemble(results).Ok?;
    var tree := Assemble(results).value;
    assert Execute(env, options) == Ok(Publish(tree, env, options));
    assert Enumerates(order, candidates);
    TreeShapeInOrder(order, env, options);
    FileCandidatesInOrder(order, candidates, env.nodes);
  }

  /** Where a regular file of the order sits among the prepared items. */
  lemma KeptIndexOf(order: seq<Path>, env: Env, options: CommitOptions, c: Path) returns (k: nat)
    requires Distinct(order)
    requires forall i :: 0 <= i < |order| ==> Prepare(order[i], env.nodes, options, env.upload).Ok?
    requires c in order && c in env.nodes && env.nodes[c].File?
    ensures k < |Kept(PrepareAll(order, env, options))|
    ensures Prepare(c, env.nodes, options, env.upload) == Ok(Some(Kept(PrepareAll(order, env, options))[k]))
  {
    var results := PrepareAll(order, env, options);
    KeptAreFiles(order, results, env, options);
    FilesInSpec(order, env.nodes);
    var files := FilesIn(order, env.nodes);
    k :| 0 <= k < |files| && files[k] == c;
  }

  /** No per-file step fails. */
  predicate AllPrepared(order: seq<Path>, env: Env, options: CommitOptions)
  {
    forall i :: 0 <= i < |order| ==> Prepare(order[i], env.nodes, options, env.upload).Ok?
  }

  /** Two different regular files with one destination, once every candidate
      has been prepared, are two stored items with one destination. */
  lemma ConflictAmongPrepared(order: seq<Path>, env: Env, options: CommitOptions, c1: Path, c2: Path)
    requires Distinct(order) && AllPrepared(order, env, options)
    requires c1 != c2 && c1 in order && c2 in order
    requires c1 in env.nodes && env.nodes[c1].File? && c2 in env.nodes && env.nodes[c2].File?
    requires Destination(c1, options.source, options.flatten, options.target) == Destination(c2, options.source, options.flatten, options.target)
    ensures Assemble(PrepareAll(order, env, options)).Err?
  {
    var k1 := KeptIndexOf(order, env, options, c1);
    var k2 := KeptIndexOf(order, env, options, c2);
    var kept := Kept(PrepareAll(order, env, options));
    assert kept[k1].source == c1 && kept[k2].source == c2;
    assert kept[k1].destination == kept[k2].destination;
    if k1 < k2 {
      RepeatedDestinationFails(PrepareAll(order, env, options), k1, k2);
    } else {
      RepeatedDestinationFails(PrepareAll(order, env, options), k2, k1);
    }
  }

  /** In any visiting order, two different regular files with one destination
      make the loop fail. */
  lemma ConflictInAnyOrder(order: seq<Path>, env: Env, options: CommitOptions, c1: Path, c2: Path)
    requires Distinct(order)
    requires c1 != c2 && c1 in order && c2 in order
    requires c1 in env.nodes && env.nodes[c1].File? && c2 in env.nodes && env.nodes[c2].File?
    requires Destination(c1, options.source, options.flatten, options.target).Ok?
    requires Destination(c1, options.source, options.flatten, options.target) == Destination(c2, options.source, options.flatten, options.target)
    ensures Assemble(PrepareAll(order, env, options)).Err?
  {
    if AllPrepared(order, env, options) {
      ConflictAmongPrepared(order, env, options, c1, c2);
    } else {
      var i :| 0 <= i < |order| && !Prepare(order[i], env.nodes, options, env.upload).Ok?;
      assert !PrepareAll(order, env, options)[i].Ok?;
    }
  }

  /** Conflicts are found over the whole candidate set: two different regular
      files with one destination make the run fail. */
  lemma ConflictingFilesAbort(env: Env, options: CommitOptions, c1: Path, c2: Path)
    requires UnchangedPaths(env).Ok?
    requires Enumerates(env.enumerate(Candidates(env, options, UnchangedPaths(env).value)), Candidates(env, options, UnchangedPaths(env).value))
    requires c1 != c2
    requires c1 in Candidates(env, options, UnchangedPaths(env).value) && c1 in env.nodes && env.nodes[c1].File?
    requires c2 in Candidates(env, options, UnchangedPaths(env).value) && c2 in env.nodes && env.nodes[c2].File?
    requires Destination(c1, options.source, options.flatten, options.target).Ok?
    requires Destination(c1, options.source, options.flatten, options.target) == Destination(c2, options.source, options.flatten, options.target)
    ensures Execute(env, options).Err?
  {
    var candidates := Candidates(env, options, UnchangedPaths(env).value);
    var order := env.enumerate(candidates);
    ConflictInAnyOrder(order, env, options, c1, c2);
  }

  /** When every selected path is already in the base tree with the id of the
      local file, the run (without `always`) returns the base commit. */
  lemma NothingNewReturnsBase(env: Env, options: CommitOptions)
    requires UnchangedPaths(env).Ok?
    requires options.always != Some(true)
    requires forall p ::
      (options.includes.Some? && MatchedBy(options.includes.value, env.glob, p)
        && !(options.excludes.Some? && MatchedBy(options.excludes.value, env.glob, p))) ==>
      TopLevelMatch(env.baseTree, LocalShas(env.nodes, env.digest), p)
        || NestedMatch(env.baseTree, env.subtrees, LocalShas(env.nodes, env.digest), p)
    ensures Execute(env, options) == Ok(BaseReturned(env.base))
  {
    var unmodified := UnchangedPaths(env).value;
    FetchUnchangedSpec(env.baseTree, env.subtrees, LocalShas(env.nodes, env.digest));
    forall p | p in Candidates(env, options, unmodified)
      ensures false
    {
      SelectSpec(options.includes, options.excludes, unmodified, env.glob, p);
    }
    assert Candidates(env, options, unmodified) == {};
  }

  // The gate tests the candidate set before directories and links are dropped,
  // so a run whose candidates are all directories (a pattern such as "*"
  // matches directories too, and the unchanged set only ever holds files)
  // publishes a commit whose tree is the base tree.

  /** Every candidate is present in the working tree and none of them is a regular file. */
  predicate NothingToStore(nodes: map<Path, Node>, candidates: set<Path>)
  {
    forall c :: c in candidates ==> c in nodes && !nodes[c].File?
  }

  /** As written: candidates that are all directories or links still produce a
      commit, reusing the base tree. */
  lemma DirectoriesAloneStillCommit(env: Env, options: CommitOptions)
    requires ValidEnumerator(env.enumerate)
    requires UnchangedPaths(env).Ok?
    requires options.always != Some(true)
    requires Candidates(env, options, UnchangedPaths(env).value) != {}
    requires NothingToStore(env.nodes, Candidates(env, options, UnchangedPaths(env).value))
    ensures Execute(env, options) == Ok(Committed(ReuseBaseTree, env.base, options.message, options.force == Some(true)))
  {
    var candidates := Candidates(env, options, UnchangedPaths(env).value);
    var order := env.enumerate(candidates);
    assert Enumerates(order, candidates);
    var results := PrepareAll(order, env, options);
    forall i | 0 <= i < |results|
      ensures results[i] == Ok(None)
    {
      assert order[i] in candidates;
    }
    SkippedAssembleNothing(results);
  }

  /** Corrected: the gate also applies after assembly, so a commit is published
      only when there is an entry to store or `always` is set; conflicts are
      reported with both files. */
  function ExecuteCorrected(env: Env, options: CommitOptions): Result<Outcome>
  {
    var unmodified :- UnchangedPaths(env);
    var candidates := Candidates(env, options, unmodified);
    if SkipsCommit(options.always, candidates) then Ok(BaseReturned(env.base))
    else
      var assembled :- AssembleTracked(PrepareAll(env.enumerate(candidates), env, options));
      if options.always != Some(true) && assembled.entries == [] then Ok(BaseReturned(env.base))
      else Ok(Publish(assembled.entries, env, options))
  }

  /** Candidates that all exist and are none of them regular files give no entries. */
  lemma NothingToStoreGivesNoEntries(order: seq<Path>, env: Env, options: CommitOptions)
    requires forall c :: c in order ==> c in env.nodes && !env.nodes[c].File?
    ensures AssembleTracked(PrepareAll(order, env, options)).Ok?
    ensures AssembleTracked(PrepareAll(order, env, options)).value.entries == []
  {
    var results := PrepareAll(order, env, options);
    forall i | 0 <= i < |results|
      ensures results[i] == Ok(None)
    {
      assert order[i] in order;
    }
    SkippedAssembleNothing(results);
  }

  /** No entries from a successful loop means every candidate exists and none is a regular file. */
  lemma NoEntriesMeansNothingToStore(order: seq<Path>, env: Env, options: CommitOptions)
    requires Distinct(order)
    requires Assemble(PrepareAll(order, env, options)).Ok?
    requires Assemble(PrepareAll(order, env, options)).value == []
    ensures forall c :: c in order ==> c in env.nodes && !env.nodes[c].File?
  {
    var results := PrepareAll(order, env, options);
    assert forall i :: 0 <= i < |results| ==> results[i].Ok?;
    KeptAreFiles(order, results, env, options);
    FilesInSpec(order, env.nodes);
    assert FilesIn(order, env.nodes) == [];
    forall c | c in order
      ensures c in env.nodes && !env.nodes[c].File?
    {
      var i :| 0 <= i < |order| && order[i] == c;
      assert results[i] == Prepare(c, env.nodes, options, env.upload);
      assert results[i].Ok?;
    }
  }

  /** In any visiting order, the corrected loop succeeds with no entries exactly
      when every candidate exists and none is a regular file. */
  lemma NoEntriesInOrder(order: seq<Path>, env: Env, options: CommitOptions)
    requires Distinct(order)
    ensures (AssembleTracked(PrepareAll(order, env, options)).Ok?
             && AssembleTracked(PrepareAll(order, env, options)).value.entries == []) <==>
      forall c :: c in order ==> c in env.nodes && !env.nodes[c].File?
  {
    var results := PrepareAll(order, env, options);
    if forall c :: c in order ==> c in env.nodes && !env.nodes[c].File? {
      NothingToStoreGivesNoEntries(order, env, options);
    }
    if AssembleTracked(results).Ok? && AssembleTracked(results).value.entries == [] {
      assert NoConflictErrors(results);
      TrackedAgreesWithAssemble(results);
      NoEntriesMeansNothingToStore(order, env, options);
    }
  }

  /** Corrected: without `always`, the run returns the base commit exactly when
      no candidate is a regular file to store (and every candidate can be
      examined), that is, when the tree would not change. */
  lemma CorrectedGateOnEntries(env: Env, options: CommitOptions)
    requires ValidEnumerator(env.enumerate)
    requires UnchangedPaths(env).Ok?
    ensures ExecuteCorrected(env, options) == Ok(BaseReturned(env.base)) <==>
      options.always != Some(true) && NothingToStore(env.nodes, Candidates(env, options, UnchangedPaths(env).value))
    ensures ExecuteCorrected(env, options).Ok? && ExecuteCorrected(env, options).value.Committed? ==>
      options.always == Some(true) || ExecuteCorrected(env, options).value.tree.LayerOntoBase?
  {
    var candidates := Candidates(env, options, UnchangedPaths(env).value);
    var order := env.enumerate(candidates);
    assert Enumerates(order, candidates);
    NoEntriesInOrder(order, env, options);
    assert NothingToStore(env.nodes, candidates) <==> forall c :: c in order ==> c in env.nodes && !env.nodes[c].File?;
  }

  /** Every stored item of a run comes from a regular file in the visiting
      order, and sits at that file's destination. */
  lemma {:induction false} KeptComeFromOrder(order: seq<Path>, env: Env, options: CommitOptions)
    ensures forall x :: x in Kept(PrepareAll(order, env, options)) ==>
      && x.source in order && x.source in env.nodes && env.nodes[x.source].File?
      && Destination(x.source, options.source, options.flatten, options.target) == Ok(x.destination)
    decreases |order|
  {
    if order != [] {
      var n := |order|;
      var results := PrepareAll(order, env, options);
      assert results[..n - 1] == PrepareAll(order[..n - 1], env, options);
      KeptComeFromOrder(order[..n - 1], env, options);
      assert results[n - 1] == Prepare(order[n - 1], env.nodes, options, env.upload);
    }
  }

  /** Appending an item from a new source keeps the sources distinct. */
  lemma SourcesAppend(kept: seq<Prepared>, x: Prepared)
    requires DistinctSources(kept)
    requires forall y :: y in kept ==> y.source != x.source
    ensures DistinctSources(kept + [x])
  {
  }

  /** Visiting each path once stores each file at most once. */
  lemma {:induction false} KeptSourcesDistinct(order: seq<Path>, env: Env, options: CommitOptions)
    requires Distinct(order)
    ensures DistinctSources(Kept(PrepareAll(order, env, options)))
    decreases |order|
  {
    if order != [] {
      var n := |order|;
      var results := PrepareAll(order, env, options);
      var pre := order[..n - 1];
      assert results[..n - 1] == PrepareAll(pre, env, options);
      assert Distinct(pre);
      KeptSourcesDistinct(pre, env, options);
      KeptComeFromOrder(pre, env, options);
      var kpre := Kept(PrepareAll(pre, env, options));
      var last := results[n - 1];
      assert last == Prepare(order[n - 1], env.nodes, options, env.upload);
      if last.Ok? && last.value.Some? {
        assert order[n - 1] !in pre;
        SourcesAppend(kpre, last.value.value);
      }
    }
  }

  /** Corrected: a conflict the corrected run reports names two different
      regular-file candidates, and both have the reported destination. */
  lemma CorrectedRunNamesBothFiles(env: Env, options: CommitOptions)
    requires UnchangedPaths(env).Ok?
    requires Enumerates(env.enumerate(Candidates(env, options, UnchangedPaths(env).value)),
                        Candidates(env, options, UnchangedPaths(env).value))
    ensures ExecuteCorrected(env, options).Err? && ExecuteCorrected(env, options).error.SourceConflict? ==>
      var e := ExecuteCorrected(env, options).error;
      var candidates := Candidates(env, options, UnchangedPaths(env).value);
      && e.first != e.second
      && e.first in candidates && e.first in env.nodes && env.nodes[e.first].File?
      && e.second in candidates && e.second in env.nodes && env.nodes[e.second].File?
      && Destination(e.first, options.source, options.flatten, options.target) == Ok(e.destination)
      && Destination(e.second, options.source, options.flatten, options.target) == Ok(e.destination)
  {
    var candidates := Candidates(env, options, UnchangedPaths(env).value);
    var order := env.enumerate(candidates);
    var results := PrepareAll(order, env, options);
    if ExecuteCorrected(env, options).Err? && ExecuteCorrected(env, options).error.SourceConflict? {
      assert AssembleTracked(results).Err? && AssembleTracked(results).error == ExecuteCorrected(env, options).error;
      assert NoConflictErrors(results);
      KeptSourcesDistinct(order, env, options);
      TrackedConflictNamesBothFiles(results);
      KeptComeFromOrder(order, env, options);
    }
  }

  /** Two prepared files with one destination, in that order: the loop stops at
      the second. */
  lemma SecondOfTwoConflicts(p1: Prepared, p2: Prepared)
    requires p1.destination == p2.destination && ClassifyMode(p1.mode).Ok?
    ensures Assemble([Ok(Some(p1)), Ok(Some(p2))]) == Err(PathConflict(p1.destination, p1.destination))
    ensures AssembleTracked([Ok(Some(p1)), Ok(Some(p2))]) == Err(SourceConflict(p1.destination, p1.source, p2.source))
  {
    var results: seq<Result<Option<Prepared>>> := [Ok(Some(p1)), Ok(Some(p2))];
    var one := results[..1];
    var entry := Blob(p1.destination, p1.sha, ClassifyMode(p1.mode).value);
    assert one == [Ok(Some(p1))] && one[..0] == [];
    assert Assemble(one[..0]) == Ok([]);
    assert p1.destination !in Paths([]);
    assert Assemble(one) == Ok([] + [entry]);
    PathsAppend([], entry);
    assert [] + [entry] == [entry];
    assert AssembleTracked(one) == Ok(Assembled([entry], map[p1.destination := p1.source]));
  }

  /** A regular file under the source directory, whose bytes the service
      accepts, is prepared with its destination and the id it was given. */
  lemma PrepareFile(path: Path, nodes: map<Path, Node>, options: CommitOptions, upload: seq<byte> -> Option<Sha>)
    requires path in nodes && nodes[path].File? && upload(nodes[path].data).Some?
    requires Destination(path, options.source, options.flatten, options.target).Ok?
    ensures Prepare(path, nodes, options, upload) ==
      Ok(Some(Prepared(path, upload(nodes[path].data).value,
                       Destination(path, options.source, options.flatten, options.target).value, nodes[path].mode)))
  {
  }

  /** A file git records as 100644 is classified as 100644 again. */
  lemma RegularModeStaysRegular()
    ensures ClassifyMode(RegularMode) == Ok(RegularMode)
  {
    assert RegularMode & ExecuteBits == 0;
  }

  /** Two files with one name in different directories are different paths
      with one flattened destination. */
  lemma CollisionPaths(dirA: Path, dirB: Path, name: string, target: Path)
    requires dirA != dirB
    ensures dirA + [name] != dirB + [name]
    ensures Destination(dirA + [name], None, Some(true), Some(target)) == Ok(target + [name])
    ensures Destination(dirB + [name], None, Some(true), Some(target)) == Ok(target + [name])
  {
    assert (dirA + [name])[..|dirA|] == dirA && (dirB + [name])[..|dirB|] == dirB;
    FlattenMergesSameName(dirA, dirB, name, Some(target));
  }

  /** Two files with one name in different directories, flattened into one
      target (for instance `build/a/x.txt` and `build/b/x.txt` flattened into
      `dist`): the action reports the shared destination twice, the corrected loop
      names both files. */
  lemma FlattenCollisionReport(dirA: Path, dirB: Path, name: string, target: Path, message: string,
                               data1: seq<byte>, data2: seq<byte>, upload: seq<byte> -> Option<Sha>)
    requires dirA != dirB
    requires upload(data1).Some? && upload(data2).Some?
    ensures var a := dirA + [name];
      var b := dirB + [name];
      var nodes := map[a := File(data1, RegularMode), b := File(data2, RegularMode)];
      var options := WithTargetDirectory(WithFlattening(New(message), Some(true)), Some(target));
      var results := [Prepare(a, nodes, options, upload), Prepare(b, nodes, options, upload)];
      && Assemble(results) == Err(PathConflict(target + [name], target + [name]))
      && AssembleTracked(results) == Err(SourceConflict(target + [name], a, b))
  {
    var a := dirA + [name];
    var b := dirB + [name];
    var d := target + [name];
    CollisionPaths(dirA, dirB, name, target);
    var nodes := map[a := File(data1, RegularMode), b := File(data2, RegularMode)];
    assert nodes[a] == File(data1, RegularMode) && nodes[b] == File(data2, RegularMode);
    var options := WithTargetDirectory(WithFlattening(New(message), Some(true)), Some(target));
    assert options.source == None && options.flatten == Some(true) && options.target == Some(target);
    var p1 := Prepared(a, upload(data1).value, d, RegularMode);
    var p2 := Prepared(b, upload(data2).value, d, RegularMode);
    PrepareFile(a, nodes, options, upload);
    PrepareFile(b, nodes, options, upload);
    var results := [Prepare(a, nodes, options, upload), Prepare(b, nodes, options, upload)];
    assert results == [Ok(Some(p1)), Ok(Some(p2))];
    RegularModeStaysRegular();
    SecondOfTwoConflicts(p1, p2);
  }
}

=== FILE: Options.dfy ===
/** `CommitOptions` and its builders. Each builder takes the record apart and
    rebuilds it with exactly one field replaced. */
module Options {
  import opened Types

  datatype CommitOptions = CommitOptions(
    message: string,
    always: Option<bool>,                // commit even when nothing changed
    source: Option<Path>,                // directory whose contents are committed
    target: Option<Path>,                // directory of the repository they are committed under
    includes: Option<seq<Pattern>>,
    excludes: Option<seq<Pattern>>,
    flatten: Option<bool>,               // drop every directory component of a file's path
    force: Option<bool>)                 // allow a non-fast-forward reference update

  /** The fields of a `CommitOptions`, to say which one a builder may change. */
  datatype Field = MessageField | AlwaysField | SourceField | TargetField | IncludeField | ExcludeField | FlattenField | ForceField

  /** a and b hold the same value in every field other than f. */
  predicate AgreeExcept(a: CommitOptions, b: CommitOptions, f: Field)
  {
    && (f == MessageField || a.message == b.message)
    && (f == AlwaysField || a.always == b.always)
    && (f == SourceField || a.source == b.source)
    && (f == TargetField || a.target == b.target)
    && (f == IncludeField || a.includes == b.includes)
    && (f == ExcludeField || a.excludes == b.excludes)
    && (f == FlattenField || a.flatten == b.flatten)
    && (f == ForceField || a.force == b.force)
  }

  /** `CommitOptions::new`: the message, `always` off, and every other option unset.
      The Rust constructor returns a `Result` but never fails. */
  function New(message: string): (o: CommitOptions)
    ensures o.message == message && o.always == Some(false)
    ensures o.source.None? && o.target.None? && o.includes.None? && o.excludes.None?
    ensures o.flatten.None? && o.force.None?
  {
    CommitOptions(message, Some(false), None, None, None, None, None, None)
  }

  function WithAlwaysCommit(o: CommitOptions, always: Option<bool>): (r: CommitOptions)
    ensures r.always == always && AgreeExcept(o, r, AlwaysField)
  {
    o.(always := always)
  }

  function WithTargetDirectory(o: CommitOptions, target: Option<Path>): (r: CommitOptions)
    ensures r.target == target && AgreeExcept(o, r, TargetField)
  {
    o.(target := target)
  }

  function WithSourceDirectory(o: CommitOptions, source: Option<Path>): (r: CommitOptions)
    ensures r.source == source && AgreeExcept(o, r, SourceField)
  {
    o.(source := source)
  }

  function WithFlattening(o: CommitOptions, flatten: Option<bool>): (r: CommitOptions)
    ensures r.flatten == flatten && AgreeExcept(o, r, FlattenField)
  {
    o.(flatten := flatten)
  }

  function WithForce(o: CommitOptions, force: Option<bool>): (r: CommitOptions)
    ensures r.force == force && AgreeExcept(o, r, ForceField)
  {
    o.(force := force)
  }

  function WithInclude(o: CommitOptions, includes: Option<seq<Pattern>>): (r: CommitOptions)
    ensures r.includes == includes && AgreeExcept(o, r, IncludeField)
  {
    o.(includes := includes)
  }

  function WithExclude(o: CommitOptions, excludes: Option<seq<Pattern>>): (r: CommitOptions)
    ensures r.excludes == excludes && AgreeExcept(o, r, ExcludeField)
  {
    o.(excludes := excludes)
  }

  /** The chain the action's entry point builds from its inputs: every option
      except `always` comes from an input, and `always` keeps the value `new` gave it. */
  function FromInputs(message: string, flatten: Option<bool>, force: Option<bool>, source: Option<Path>,
                      target: Option<Path>, includes: Option<seq<Pattern>>, excludes: Option<seq<Pattern>>): (o: CommitOptions)
    ensures o == CommitOptions(message, Some(false), source, target, includes, excludes, flatten, force)
  {
    WithExclude(WithInclude(WithTargetDirectory(WithSourceDirectory(WithForce(WithFlattening(
      New(message), flatten), force), source), target), includes), excludes)
  }

  /** One builder call with its argument: the seven `with_*` methods. */
  datatype Update =
    | SetAlways(always: Option<bool>)
    | SetTarget(target: Option<Path>)
    | SetSource(source: Option<Path>)
    | SetFlatten(flatten: Option<bool>)
    | SetForce(force: Option<bool>)
    | SetIncludes(includes: Option<seq<Pattern>>)
    | SetExcludes(excludes: Option<seq<Pattern>>)

  /** The field an update's builder replaces. */
  function FieldOf(u: Update): Field
  {
    match u
    case SetAlways(_) => AlwaysField
    case SetTarget(_) => TargetField
    case SetSource(_) => SourceField
    case SetFlatten(_) => FlattenField
    case SetForce(_) => ForceField
    case SetIncludes(_) => IncludeField
    case SetExcludes(_) => ExcludeField
  }

  /** Calls the builder an update names. */
  function Apply(o: CommitOptions, u: Update): (r: CommitOptions)
    ensures AgreeExcept(o, r, FieldOf(u))
  {
    match u
    case SetAlways(v) => WithAlwaysCommit(o, v)
    case SetTarget(v) => WithTargetDirectory(o, v)
    case SetSource(v) => WithSourceDirectory(o, v)
    case SetFlatten(v) => WithFlattening(o, v)
    case SetForce(v) => WithForce(o, v)
    case SetIncludes(v) => WithInclude(o, v)
    case SetExcludes(v) => WithExclude(o, v)
  }

  /** Calling the same builder twice keeps only the second argument. */
  lemma LastWriteWins(o: CommitOptions, u: Update, v: Update)
    requires FieldOf(u) == FieldOf(v)
    ensures Apply(Apply(o, u), v) == Apply(o, v)
  {
  }

  /** Builders that replace different fields can be applied in either order. */
  lemma BuildersCommute(o: CommitOptions, u: Update, v: Update)
    requires FieldOf(u) != FieldOf(v)
    ensures Apply(Apply(o, u), v) == Apply(Apply(o, v), u)
  {
  }
}

=== FILE: PathTransform.dfy ===
/** The destination of a candidate (lines 319-331), on component paths: strip
    the source directory, then optionally flatten, then put the result under the
    target directory. */
module PathTransform {
  import opened Types

  /** `Path::strip_prefix`: what follows `prefix` in `path`, when `prefix` leads it component-wise. */
  function StripPrefix(path: Path, prefix: Path): (r: Option<Path>)
    ensures r.Some? <==> prefix <= path
    ensures r.Some? ==> prefix + r.value == path
  {
    if prefix <= path then Some(path[|prefix|..]) else None
  }

  /** `Path::parent` of a relative path: all components but the last. A single
      component has the empty path as parent; the empty path has none. */
  function Parent(path: Path): (r: Option<Path>)
    ensures r.Some? <==> path != []
    ensures r.Some? ==> r.value + [path[|path| - 1]] == path
  {
    if path == [] then None else Some(path[..|path| - 1])
  }

  /** Lines 324-327: strip the parent off the path. The strip cannot fail, so the
      `?` there never fires; the result is the last component, or the empty path
      when there is none. */
  function Flatten(path: Path): (r: Path)
    ensures |r| == (if path == [] then 0 else 1)
    ensures r == path[|path| - |r|..]
  {
    match Parent(path)
    case None => path
    case Some(parent) =>
      match StripPrefix(path, parent)
      case Some(rest) => rest
      case None => assert false; path
  }

  /** A directory option as the prefix it stands for; an unset one is the empty path. */
  function Root(dir: Option<Path>): Path
  {
    if dir.Some? then dir.value else []
  }

  /** Step one: strip the source directory, failing for a path outside it. */
  function StripSource(path: Path, source: Option<Path>): (r: Result<Path>)
    ensures r.Ok? <==> Root(source) <= path
    ensures r.Ok? ==> Root(source) + r.value == path
    ensures r.Err? ==> r.error == StripPrefixError(path, source.value)
  {
    match source
    case None => Ok(path)
    case Some(dir) =>
      match StripPrefix(path, dir)
      case Some(rest) => Ok(rest)
      case None => Err(StripPrefixError(path, dir))
  }

  /** The destination of `path`. It lies under the target directory; below it
      sits either the path's last component (flattened, for a path strictly
      below the source directory) or the path's own position below the source directory. */
  function Destination(path: Path, source: Option<Path>, flatten: Option<bool>, target: Option<Path>): (r: Result<Path>)
    ensures r.Ok? <==> Root(source) <= path
    ensures r.Err? ==> r.error == StripPrefixError(path, source.value)
    ensures r.Ok? ==> Root(target) <= r.value
    ensures r.Ok? && flatten == Some(true) && |path| > |Root(source)| ==>
      r.value[|Root(target)|..] == [path[|path| - 1]]
    ensures r.Ok? && !(flatten == Some(true) && |path| > |Root(source)|) ==>
      Root(source) + r.value[|Root(target)|..] == path
  {
    var stripped :- StripSource(path, source);
    var flattened := if flatten == Some(true) then Flatten(stripped) else stripped;
    Ok(if target.Some? then target.value + flattened else flattened)
  }

  /** Flattening leaves a path of one component alone. */
  lemma FlattenKeepsFileName(name: string)
    ensures Flatten([name]) == [name]
  {
  }

  /** Two files with the same name in different directories get the same
      destination once flattened: the collision the assembly step must reject. */
  lemma FlattenMergesSameName(a: Path, b: Path, name: string, target: Option<Path>)
    ensures Destination(a + [name], None, Some(true), target) == Destination(b + [name], None, Some(true), target)
    ensures Destination(a + [name], None, Some(true), target) == Ok(Root(target) + [name])
  {
    var pa := a + [name];
    var pb := b + [name];
    assert pa[|pa| - 1..] == [name] && pb[|pb| - 1..] == [name];
    assert Flatten(pa) == [name] == Flatten(pb);
    assert StripSource(pa, None) == Ok(pa);
    if target.None? {
      assert Root(target) + [name] == [name];
    }
  }
}

=== FILE: Selection.dfy ===
/** The candidate set of `execute` (lines 270-292): every include pattern, in
    order, adds its matches that are not unchanged; then every exclude pattern,
    in order, removes its matches. Glob expansion is a parameter: the matches it
    yields for a pattern, in the order it yields them, with unreadable entries
    already dropped. */
module Selection {
  import opened Types

  /** The inner include loop: each match is inserted unless it is unchanged. */
  function AddMatches(entries: set<Path>, matches: seq<Path>, unmodified: set<Path>): set<Path>
    decreases |matches|
  {
    if matches == [] then entries
    else AddMatches(if matches[0] in unmodified then entries else entries + {matches[0]}, matches[1..], unmodified)
  }

  function IncludePass(entries: set<Path>, patterns: seq<Pattern>, unmodified: set<Path>, glob: Pattern -> seq<Path>): set<Path>
    decreases |patterns|
  {
    if patterns == [] then entries
    else IncludePass(AddMatches(entries, glob(patterns[0]), unmodified), patterns[1..], unmodified, glob)
  }

  /** The inner exclude loop: removing a path that is not there is no error. */
  function RemoveMatches(entries: set<Path>, matches: seq<Path>): set<Path>
    decreases |matches|
  {
    if matches == [] then entries else RemoveMatches(entries - {matches[0]}, matches[1..])
  }

  function ExcludePass(entries: set<Path>, patterns: seq<Pattern>, glob: Pattern -> seq<Path>): set<Path>
    decreases |patterns|
  {
    if patterns == [] then entries else ExcludePass(RemoveMatches(entries, glob(patterns[0])), patterns[1..], glob)
  }

  function Select(includes: Option<seq<Pattern>>, excludes: Option<seq<Pattern>>, unmodified: set<Path>,
                  glob: Pattern -> seq<Path>): set<Path>
  {
    var included := if includes.Some? then IncludePass({}, includes.value, unmodified, glob) else {};
    if excludes.Some? then ExcludePass(included, excludes.value, glob) else included
  }

  /** Some pattern of the list matches p. */
  ghost predicate MatchedBy(patterns: seq<Pattern>, glob: Pattern -> seq<Path>, p: Path)
  {
    exists i :: 0 <= i < |patterns| && p in glob(patterns[i])
  }

  lemma {:induction false} AddMatchesSpec(entries: set<Path>, matches: seq<Path>, unmodified: set<Path>)
    ensures forall p :: p in AddMatches(entries, matches, unmodified) <==> p in entries || (p in matches && p !in unmodified)
    decreases |matches|
  {
    if matches != [] {
      var next := if matches[0] in unmodified then entries else entries + {matches[0]};
      AddMatchesSpec(next, matches[1..], unmodified);
      assert forall p :: p in matches <==> p == matches[0] || p in matches[1..];
    }
  }

  lemma {:induction false} IncludePassSpec(entries: set<Path>, patterns: seq<Pattern>, unmodified: set<Path>, glob: Pattern -> seq<Path>)
    ensures forall p :: p in IncludePass(entries, patterns, unmodified, glob) <==>
      p in entries || (MatchedBy(patterns, glob, p) && p !in unmodified)
    decreases |patterns|
  {
    if patterns != [] {
      var next := AddMatches(entries, glob(patterns[0]), unmodified);
      AddMatchesSpec(entries, glob(patterns[0]), unmodified);
      IncludePassSpec(next, patterns[1..], unmodified, glob);
      forall p
        ensures MatchedBy(patterns, glob, p) <==> p in glob(patterns[0]) || MatchedBy(patterns[1..], glob, p)
      {
        if MatchedBy(patterns, glob, p) && p !in glob(patterns[0]) {
          var i :| 0 <= i < |patterns| && p in glob(patterns[i]);
          assert patterns[1..][i - 1] == patterns[i];
        }
        if MatchedBy(patterns[1..], glob, p) {
          var i :| 0 <= i < |patterns[1..]| && p in glob(patterns[1..][i]);
          assert patterns[i + 1] == patterns[1..][i];
        }
      }
    }
  }

  lemma {:induction false} RemoveMatchesSpec(entries: set<Path>, matches: seq<Path>)
    ensures forall p :: p in RemoveMatches(entries, matches) <==> p in entries && p !in matches
    decreases |matches|
  {
    if matches != [] {
      RemoveMatchesSpec(entries - {matches[0]}, matches[1..]);
      assert forall p :: p in matches <==> p == matches[0] || p in matches[1..];
    }
  }

  lemma {:induction false} ExcludePassSpec(entries: set<Path>, patterns: seq<Pattern>, glob: Pattern -> seq<Path>)
    ensures forall p :: p in ExcludePass(entries, patterns, glob) <==> p in entries && !MatchedBy(patterns, glob, p)
    decreases |patterns|
  {
    if patterns != [] {
      RemoveMatchesSpec(entries, glob(patterns[0]));
      ExcludePassSpec(RemoveMatches(entries, glob(patterns[0])), patterns[1..], glob);
      forall p
        ensures MatchedBy(patterns, glob, p) <==> p in glob(patterns[0]) || MatchedBy(patterns[1..], glob, p)
      {
        if MatchedBy(patterns, glob, p) && p !in glob(patterns[0]) {
          var i :| 0 <= i < |patterns| && p in glob(patterns[i]);
          assert patterns[1..][i - 1] == patterns[i];
        }
        if MatchedBy(patterns[1..], glob, p) {
          var i :| 0 <= i < |patterns[1..]| && p in glob(patterns[1..][i]);
          assert patterns[i + 1] == patterns[1..][i];
        }
      }
    }
  }

  /** The candidate set is (matches of the includes) minus the unchanged set minus
      (matches of the excludes); with no include list it is empty. */
  lemma SelectSpec(includes: Option<seq<Pattern>>, excludes: Option<seq<Pattern>>, unmodified: set<Path>,
                   glob: Pattern -> seq<Path>, p: Path)
    ensures p in Select(includes, excludes, unmodified, glob) <==>
      && includes.Some? && MatchedBy(includes.value, glob, p)
      && p !in unmodified
      && !(excludes.Some? && MatchedBy(excludes.value, glob, p))
  {
    if includes.Some? {
      IncludePassSpec({}, includes.value, unmodified, glob);
    }
    if excludes.Some? {
      var included := if includes.Some? then IncludePass({}, includes.value, unmodified, glob) else {};
      ExcludePassSpec(included, excludes.value, glob);
    }
  }
}

=== FILE: Types.dfy ===
/** Vocabulary shared by the model of the commit action: paths, content ids, the
    working tree as `std::fs` sees it, entries of remote tree listings, and the
    failures that end a run. */
module Types {

  /** A byte of file content. */
  newtype byte = x: int | 0 <= x < 256

  /** A relative path as its sequence of components: "a/b/c.txt" is ["a", "b", "c.txt"]. */
  type Path = seq<string>

  /** A hex-encoded git object id. It is only ever compared for equality. */
  type Sha = string

  /** A glob pattern, kept as its text. */
  type Pattern = string

  datatype Option<+T> = None | Some(value: T)

  /** Every failure ends the run; nothing is retried. */
  datatype Error =
    | IoError(path: Path)                                       // a file could not be stat-ed or read
    | StripPrefixError(path: Path, prefix: Path)                // a candidate lies outside the source directory
    | PathConflict(path: Path, other: Path)                     // two candidates share a destination, as the action reports it
    | SourceConflict(destination: Path, first: Path, second: Path) // the same, naming both candidates
    | UnsupportedMode(mode: bv32)                               // the permission bits grant neither read nor execute
    | RemoteError                                               // the repository service refused to store a blob

  /** The outcome of a step that can fail; usable with `:-`. */
  datatype Result<+T> = Ok(value: T) | Err(error: Error) {

    predicate IsFailure() {
      Err?
    }

    function PropagateFailure<U>(): Result<U>
      requires Err?
    {
      Err(error)
    }

    function Extract(): T
      requires Ok?
    {
      value
    }
  }

  /** A node of the working tree. */
  datatype Node =
    | File(data: seq<byte>, mode: bv32)      // a regular file: its bytes and its `st_mode`
    | Directory
    | Link(resolved: Option<seq<byte>>)      // a symbolic link: the bytes a read through it yields, if the read succeeds

  /** An entry of a git tree listing: a file, a subtree, or a submodule commit. */
  datatype TreeEntry =
    | Blob(path: Path, sha: Sha, mode: bv32)
    | Tree(path: Path, sha: Sha)
    | Submodule(path: Path, sha: Sha)

  /** What `std::fs::read` returns for a node: reads follow links, and a directory cannot be read. */
  function Contents(node: Node): Option<seq<byte>>
  {
    match node
    case File(data, _) => Some(data)
    case Directory => None
    case Link(resolved) => resolved
  }
}

=== FILE: Unchanged.dfy ===
/** `fetch_unchanged`: the paths whose local file already has the id the base
    tree records for them. The top level of the base tree is scanned in order and
    a top-level blob whose local hash fails ends the run; each subtree is then
    fetched as a recursive listing, and a failed fetch or a failed hash of a
    nested file only leaves paths out. */
module Unchanged {
  import opened Types
  import opened BlobHash

  /** The ids of the local files that can be hashed; an absent path is one whose hash fails. */
  function LocalShas(nodes: map<Path, Node>, digest: seq<byte> -> Sha): (local: map<Path, Sha>)
    ensures forall p :: p in local <==> FileSha(nodes, p, digest).Ok?
    ensures forall p :: p in local ==> Ok(local[p]) == FileSha(nodes, p, digest)
  {
    map p | p in nodes && Contents(nodes[p]).Some? :: FileSha(nodes, p, digest).value
  }

  /** What the serial pass over the top level collects: the unchanged top-level
      blobs and the subtrees still to fetch, as (path, id) pairs. */
  datatype TopLevelScan = TopLevelScan(matched: set<Path>, trees: seq<(Path, Sha)>)

  /** Lines 212-224: blobs are compared at once, trees are queued, submodules skipped. */
  function ScanTopLevel(top: seq<TreeEntry>, local: map<Path, Sha>): Result<TopLevelScan>
    decreases |top|
  {
    if top == [] then Ok(TopLevelScan({}, []))
    else
      match top[0]
      case Blob(path, sha, _) =>
        if path !in local then Err(IoError(path))
        else
          var rest :- ScanTopLevel(top[1..], local);
          Ok(rest.(matched := if local[path] == sha then {path} + rest.matched else rest.matched))
      case Tree(path, sha) =>
        var rest :- ScanTopLevel(top[1..], local);
        Ok(rest.(trees := [(path, sha)] + rest.trees))
      case Submodule(_, _) => ScanTopLevel(top[1..], local)
  }

  /** The blobs of a recursive subtree listing, with paths put under the subtree's own path. */
  function Rerooted(parent: Path, listing: seq<TreeEntry>): seq<(Path, Sha)>
  {
    if listing == [] then []
    else
      (if listing[0].Blob? then [(parent + listing[0].path, listing[0].sha)] else [])
      + Rerooted(parent, listing[1..])
  }

  /** Lines 228-240: every queued subtree is fetched; one whose fetch fails adds nothing. */
  function SubtreeBlobs(trees: seq<(Path, Sha)>, subtrees: map<Sha, seq<TreeEntry>>): seq<(Path, Sha)>
  {
    if trees == [] then []
    else
      (if trees[0].1 in subtrees then Rerooted(trees[0].0, subtrees[trees[0].1]) else [])
      + SubtreeBlobs(trees[1..], subtrees)
  }

  /** Lines 242-248: the nested paths whose local hash succeeds and equals the remote id. */
  function Matching(blobs: seq<(Path, Sha)>, local: map<Path, Sha>): set<Path>
  {
    set i | 0 <= i < |blobs| && blobs[i].0 in local && local[blobs[i].0] == blobs[i].1 :: blobs[i].0
  }

  function FetchUnchanged(top: seq<TreeEntry>, subtrees: map<Sha, seq<TreeEntry>>, local: map<Path, Sha>): Result<set<Path>>
  {
    var scan :- ScanTopLevel(top, local);
    Ok(scan.matched + Matching(SubtreeBlobs(scan.trees, subtrees), local))
  }

  // The reference description of the unchanged set, stated on the listings directly.

  /** The i-th top-level entry is a blob whose local hash fails. */
  predicate Unhashable(top: seq<TreeEntry>, local: map<Path, Sha>, i: int)
    requires 0 <= i < |top|
  {
    top[i].Blob? && top[i].path !in local
  }

  /** p is a top-level blob whose local id equals its remote id. */
  ghost predicate TopLevelMatch(top: seq<TreeEntry>, local: map<Path, Sha>, p: Path)
  {
    exists i :: 0 <= i < |top| && top[i].Blob? && top[i].path == p && p in local && local[p] == top[i].sha
  }

  /** p is a blob of a fetchable subtree, under that subtree's path, whose local id equals its remote id. */
  ghost predicate NestedMatch(top: seq<TreeEntry>, subtrees: map<Sha, seq<TreeEntry>>, local: map<Path, Sha>, p: Path)
  {
    exists i, j ::
      && 0 <= i < |top| && top[i].Tree? && top[i].sha in subtrees
      && 0 <= j < |subtrees[top[i].sha]| && subtrees[top[i].sha][j].Blob?
      && top[i].path + subtrees[top[i].sha][j].path == p
      && p in local && local[p] == subtrees[top[i].sha][j].sha
  }

  /** The top-level scan fails exactly at the first top-level blob that cannot be hashed. */
  lemma {:induction false} ScanTopLevelFailure(top: seq<TreeEntry>, local: map<Path, Sha>)
    ensures ScanTopLevel(top, local).Ok? <==> forall i :: 0 <= i < |top| ==> !Unhashable(top, local, i)
    ensures ScanTopLevel(top, local).Err? ==>
      exists i :: 0 <= i < |top| && Unhashable(top, local, i) && ScanTopLevel(top, local).error == IoError(top[i].path)
        && forall j :: 0 <= j < i ==> !Unhashable(top, local, j)
    decreases |top|
  {
    if top != [] {
      var tail := top[1..];
      ScanTopLevelFailure(tail, local);
      if ScanTopLevel(top, local).Err? {
        if !Unhashable(top, local, 0) {
          var k :| 0 <= k < |tail| && Unhashable(tail, local, k) && ScanTopLevel(tail, local).error == IoError(tail[k].path)
            && forall j :: 0 <= j < k ==> !Unhashable(tail, local, j);
          assert top[k + 1] == tail[k];
          assert Unhashable(top, local, k + 1);
          forall j | 0 < j < k + 1
            ensures !Unhashable(top, local, j)
          {
            assert top[j] == tail[j - 1];
            assert !Unhashable(tail, local, j - 1);
          }
        }
      } else {
        forall i | 0 < i < |top|
          ensures !Unhashable(top, local, i)
        {
          assert top[i] == tail[i - 1];
          assert !Unhashable(tail, local, i - 1);
        }
      }
    }
  }

  /** A successful top-level scan collects exactly the matching top-level blobs
      and queues exactly the top-level subtrees. */
  lemma {:induction false} ScanTopLevelContents(top: seq<TreeEntry>, local: map<Path, Sha>)
    requires ScanTopLevel(top, local).Ok?
    ensures forall p :: p in ScanTopLevel(top, local).value.matched <==> TopLevelMatch(top, local, p)
    ensures forall t :: t in ScanTopLevel(top, local).value.trees <==> exists i :: 0 <= i < |top| && top[i] == Tree(t.0, t.1)
    decreases |top|
  {
    if top != [] {
      var tail := top[1..];
      var scan := ScanTopLevel(top, local).value;
      assert ScanTopLevel(tail, local).Ok?;
      var rest := ScanTopLevel(tail, local).value;
      ScanTopLevelContents(tail, local);
      forall p | TopLevelMatch(top, local, p)
        ensures p in scan.matched
      {
        var i :| 0 <= i < |top| && top[i].Blob? && top[i].path == p && p in local && local[p] == top[i].sha;
        if i > 0 {
          assert tail[i - 1] == top[i];
          assert TopLevelMatch(tail, local, p);
        }
      }
      forall p | p in scan.matched
        ensures TopLevelMatch(top, local, p)
      {
        if p !in rest.matched {
          assert top[0].Blob? && top[0].path == p;
        } else {
          var i :| 0 <= i < |tail| && tail[i].Blob? && tail[i].path == p && p in local && local[p] == tail[i].sha;
          assert top[i + 1] == tail[i];
        }
      }
      forall t: (Path, Sha) | (exists i :: 0 <= i < |top| && top[i] == Tree(t.0, t.1))
        ensures t in scan.trees
      {
        var i :| 0 <= i < |top| && top[i] == Tree(t.0, t.1);
        if i > 0 {
          assert tail[i - 1] == Tree(t.0, t.1);
        }
      }
      forall t: (Path, Sha) | t in scan.trees
        ensures exists i :: 0 <= i < |top| && top[i] == Tree(t.0, t.1)
      {
        if t !in rest.trees {
          assert top[0] == Tree(t.0, t.1);
        } else {
          var i :| 0 <= i < |tail| && tail[i] == Tree(t.0, t.1);
          assert top[i + 1] == tail[i];
        }
      }
    }
  }

  /** The serial pass over the top level, as a whole. */
  lemma ScanTopLevelSpec(top: seq<TreeEntry>, local: map<Path, Sha>)
    ensures ScanTopLevel(top, local).Ok? <==> forall i :: 0 <= i < |top| ==> !Unhashable(top, local, i)
    ensures ScanTopLevel(top, local).Err? ==>
      exists i :: 0 <= i < |top| && Unhashable(top, local, i) && ScanTopLevel(top, local).error == IoError(top[i].path)
        && forall j :: 0 <= j < i ==> !Unhashable(top, local, j)
    ensures ScanTopLevel(top, local).Ok? ==>
      forall p :: p in ScanTopLevel(top, local).value.matched <==> TopLevelMatch(top, local, p)
    ensures ScanTopLevel(top, local).Ok? ==>
      forall t :: t in ScanTopLevel(top, local).value.trees <==> exists i :: 0 <= i < |top| && top[i] == Tree(t.0, t.1)
  {
    ScanTopLevelFailure(top, local);
    if ScanTopLevel(top, local).Ok? {
      ScanTopLevelContents(top, local);
    }
  }

  lemma {:induction false} RerootedSpec(parent: Path, listing: seq<TreeEntry>)
    ensures forall b :: b in Rerooted(parent, listing) <==>
      exists j :: 0 <= j < |listing| && listing[j].Blob? && b == (parent + listing[j].path, listing[j].sha)
    decreases |listing|
  {
    if listing != [] {
      RerootedSpec(parent, listing[1..]);
      forall b | b in Rerooted(parent, listing)
        ensures exists j :: 0 <= j < |listing| && listing[j].Blob? && b == (parent + listing[j].path, listing[j].sha)
      {
        if b !in Rerooted(parent, listing[1..]) {
          assert listing[0].Blob? && b == (parent + listing[0].path, listing[0].sha);
        } else {
          var j :| 0 <= j < |listing[1..]| && listing[1..][j].Blob? && b == (parent + listing[1..][j].path, listing[1..][j].sha);
          assert listing[j + 1] == listing[1..][j];
        }
      }
      forall b | exists j :: 0 <= j < |listing| && listing[j].Blob? && b == (parent + listing[j].path, listing[j].sha)
        ensures b in Rerooted(parent, listing)
      {
        var j :| 0 <= j < |listing| && listing[j].Blob? && b == (parent + listing[j].path, listing[j].sha);
        if j > 0 {
          assert listing[1..][j - 1] == listing[j];
        }
      }
    }
  }

  lemma {:induction false} SubtreeBlobsSpec(trees: seq<(Path, Sha)>, subtrees: map<Sha, seq<TreeEntry>>)
    ensures forall b :: b in SubtreeBlobs(trees, subtrees) <==>
      exists k :: 0 <= k < |trees| && trees[k].1 in subtrees && b in Rerooted(trees[k].0, subtrees[trees[k].1])
    decreases |trees|
  {
    if trees != [] {
      SubtreeBlobsSpec(trees[1..], subtrees);
      forall b | b in SubtreeBlobs(trees, subtrees)
        ensures exists k :: 0 <= k < |trees| && trees[k].1 in subtrees && b in Rerooted(trees[k].0, subtrees[trees[k].1])
      {
        if b !in SubtreeBlobs(trees[1..], subtrees) {
          assert trees[0].1 in subtrees && b in Rerooted(trees[0].0, subtrees[trees[0].1]);
        } else {
          var k :| 0 <= k < |trees[1..]| && trees[1..][k].1 in subtrees && b in Rerooted(trees[1..][k].0, subtrees[trees[1..][k].1]);
          assert trees[k + 1] == trees[1..][k];
        }
      }
      forall b | exists k :: 0 <= k < |trees| && trees[k].1 in subtrees && b in Rerooted(trees[k].0, subtrees[trees[k].1])
        ensures b in SubtreeBlobs(trees, subtrees)
      {
        var k :| 0 <= k < |trees| && trees[k].1 in subtrees && b in Rerooted(trees[k].0, subtrees[trees[k].1]);
        if k > 0 {
          assert trees[1..][k - 1] == trees[k];
        }
      }
    }
  }

  /** The whole of `fetch_unchanged`: it fails exactly when some top-level blob
      cannot be hashed, with the first such blob's path; otherwise the set holds
      exactly the top-level and nested blob paths whose local id equals the remote one. */
  lemma FetchUnchangedSpec(top: seq<TreeEntry>, subtrees: map<Sha, seq<TreeEntry>>, local: map<Path, Sha>)
    ensures FetchUnchanged(top, subtrees, local).Ok? <==> forall i :: 0 <= i < |top| ==> !Unhashable(top, local, i)
    ensures FetchUnchanged(top, subtrees, local).Err? ==>
      exists i :: 0 <= i < |top| && Unhashable(top, local, i) && FetchUnchanged(top, subtrees, local).error == IoError(top[i].path)
        && forall j :: 0 <= j < i ==> !Unhashable(top, local, j)
    ensures FetchUnchanged(top, subtrees, local).Ok? ==>
      forall p :: p in FetchUnchanged(top, subtrees, local).value <==>
        TopLevelMatch(top, local, p) || NestedMatch(top, subtrees, local, p)
  {
    ScanTopLevelSpec(top, local);
    if ScanTopLevel(top, local).Ok? {
      var scan := ScanTopLevel(top, local).value;
      var blobs := SubtreeBlobs(scan.trees, subtrees);
      SubtreeBlobsSpec(scan.trees, subtrees);
      forall p | p in Matching(blobs, local)
        ensures NestedMatch(top, subtrees, local, p)
      {
        var n :| 0 <= n < |blobs| && blobs[n].0 in local && local[blobs[n].0] == blobs[n].1 && blobs[n].0 == p;
        assert blobs[n] in blobs;
        var k :| 0 <= k < |scan.trees| && scan.trees[k].1 in subtrees && blobs[n] in Rerooted(scan.trees[k].0, subtrees[scan.trees[k].1]);
        var t := scan.trees[k];
        assert t in scan.trees;
        var i :| 0 <= i < |top| && top[i] == Tree(t.0, t.1);
        RerootedSpec(t.0, subtrees[t.1]);
        var j :| 0 <= j < |subtrees[t.1]| && subtrees[t.1][j].Blob? && blobs[n] == (t.0 + subtrees[t.1][j].path, subtrees[t.1][j].sha);
      }
      forall p | NestedMatch(top, subtrees, local, p)
        ensures p in Matching(blobs, local)
      {
        var i, j :|
          && 0 <= i < |top| && top[i].Tree? && top[i].sha in subtrees
          && 0 <= j < |subtrees[top[i].sha]| && subtrees[top[i].sha][j].Blob?
          && top[i].path + subtrees[top[i].sha][j].path == p
          && p in local && local[p] == subtrees[top[i].sha][j].sha;
        var t := (top[i].path, top[i].sha);
        assert t in scan.trees;
        var k :| 0 <= k < |scan.trees| && scan.trees[k] == t;
        RerootedSpec(t.0, subtrees[t.1]);
        var b := (p, subtrees[t.1][j].sha);
        assert b in Rerooted(t.0, subtrees[t.1]);
        assert b in blobs;
        var n :| 0 <= n < |blobs| && blobs[n] == b;
      }
    }
  }

  /** A subtree that cannot be fetched, or a nested file that cannot be hashed,
      only leaves paths out: with fewer subtrees available and fewer local hashes
      (the top-level blobs still hashing as before), the run succeeds or fails
      alike and finds a subset of the unchanged paths. */
  lemma NestedFailuresOnlyOmit(top: seq<TreeEntry>, subtrees: map<Sha, seq<TreeEntry>>, fewer: map<Sha, seq<TreeEntry>>,
                               local: map<Path, Sha>, partial: map<Path, Sha>)
    requires fewer.Keys <= subtrees.Keys && forall s :: s in fewer ==> fewer[s] == subtrees[s]
    requires partial.Keys <= local.Keys && forall p :: p in partial ==> partial[p] == local[p]
    requires forall i :: 0 <= i < |top| && top[i].Blob? ==> (top[i].path in partial <==> top[i].path in local)
    ensures FetchUnchanged(top, fewer, partial).Ok? == FetchUnchanged(top, subtrees, local).Ok?
    ensures FetchUnchanged(top, fewer, partial).Ok? ==>
      FetchUnchanged(top, fewer, partial).value <= FetchUnchanged(top, subtrees, local).value
  {
    FetchUnchangedSpec(top, subtrees, local);
    FetchUnchangedSpec(top, fewer, partial);
    forall i | 0 <= i < |top|
      ensures Unhashable(top, partial, i) == Unhashable(top, local, i)
    {
    }
    if FetchUnchanged(top, fewer, partial).Ok? {
      forall p | p in FetchUnchanged(top, fewer, partial).value
        ensures p in FetchUnchanged(top, subtrees, local).value
      {
        if TopLevelMatch(top, partial, p) {
          var i :| 0 <= i < |top| && top[i].Blob? && top[i].path == p && p in partial && partial[p] == top[i].sha;
          assert TopLevelMatch(top, local, p);
        } else {
          var i, j :|
            && 0 <= i < |top| && top[i].Tree? && top[i].sha in fewer
            && 0 <= j < |fewer[top[i].sha]| && fewer[top[i].sha][j].Blob?
            && top[i].path + fewer[top[i].sha][j].path == p
            && p in partial && partial[p] == fewer[top[i].sha][j].sha;
          assert NestedMatch(top, subtrees, local, p);
        }
      }
    }
  }

  /** Every unchanged path is a blob of the base tree whose id is the id of the
      local file at that path. */
  lemma UnchangedMeansSameId(top: seq<TreeEntry>, subtrees: map<Sha, seq<TreeEntry>>, nodes: map<Path, Node>,
                             digest: seq<byte> -> Sha, p: Path)
    requires FetchUnchanged(top, subtrees, LocalShas(nodes, digest)).Ok?
    requires p in FetchUnchanged(top, subtrees, LocalShas(nodes, digest)).value
    ensures FileSha(nodes, p, digest).Ok?
    ensures TopLevelMatch(top, LocalShas(nodes, digest), p) || NestedMatch(top, subtrees, LocalShas(nodes, digest), p)
  {
    FetchUnchangedSpec(top, subtrees, LocalShas(nodes, digest));
  }
}
